=== FILE: README.md ===
# Gemini proxy handlers, modelled in Dafny

Two serverless HTTP handlers stand between a browser front end and the Gemini
`generateContent` API:

- the **receipt** handler (`netlify/functions/gemini-receipt.js`) sends a receipt
  image and a fixed instruction prompt, and returns the JSON object the model writes;
- the **advice** handler (`netlify/functions/gemini-advice.js`) sends a user prompt
  and returns the model's text.

Both handlers first build a list of model paths to try, `buildModelInvocationOrder`.
It lists the preferred models that the live catalog supports, then every other
supported model, and falls back to the preferred list when the catalog call fails
or lists nothing usable. The handler then tries each path in turn and stops at the
first usable reply.

The model is functional. Every outcome that reaches the handlers from the outside
is an input value:

- the catalog outcome (`Gemini.Catalog`);
- the reply each path gets (`Gemini.Reply`);
- the result of `JSON.parse` (an `Option`-valued function);
- whether the API key is configured (a `bool`).

The modules follow the program's structure:

| module | file | what it holds |
|---|---|---|
| `Common` | `common.dfy` | `Option`, `Result`, and `Or` (JavaScript `a \|\| b` on strings) |
| `Strings` | `strings.dfy` | substring search, `replace(/lit/g, '')`, `trim`, `join`, `/lit/i`, decimal rendering |
| `Sequences` | `sequences.dfy` | distinctness, first-occurrence order, order-preserving filter, de-duplication |
| `Gemini` | `gemini.dfy` | the catalog and reply shapes, the non-ok message, text extraction |
| `ModelOrder` | `model_order.dfy` | both preferred lists, model paths, `buildModelInvocationOrder` |
| `Fallback` | `fallback.dfy` | the per-path `try`/`catch` loop both handlers run |
| `Http` | `http.dfy` | request, parsed payload, response, the method and key checks |
| `Receipt` | `receipt.dfy` | fence cleaning, `analyzeReceiptImage`, the receipt `handler` |
| `Advice` | `advice.dfy` | `requestGeminiAdvice`, prompt extraction, the advice `handler` |

JavaScript's "missing, `null` or falsy" string is the empty string throughout.
The handlers only ever look at whether those values are truthy.

Every way an attempt can fail leaves a message behind and moves on to the next path:

- a non-ok reply classified as "try next model" `continue`s
  (gemini-receipt.js:106-107, gemini-advice.js:83-86);
- a receipt reply with no text `continue`s (gemini-receipt.js:115-118); an advice
  reply with no text records the no-advice message and falls through to the end of
  the iteration (gemini-advice.js:102);
- the other non-ok replies and an unparsable receipt reply `throw`
  (gemini-receipt.js:109 and :129, gemini-advice.js:88);
- those `throw`s happen inside the iteration's own `try`, so the `catch` at
  gemini-receipt.js:132-135 / gemini-advice.js:103-105 records the message and the
  loop goes on.

Only running out of paths ends the loop with an error (gemini-receipt.js:138,
gemini-advice.js:108).

As a consequence, the 404 / "not found" / "not supported" classification has no
observable effect for replies whose `error.message` is a string or absent.
`Receipt.AnalyzeIgnoresClassification` and `Advice.AdviceIgnoresClassification`
prove this for every classifier. Such a non-ok reply records the same message
whichever way it is classified. A non-string message is the exception; it is
listed under "Left out".

The two copies of `buildModelInvocationOrder` also differ in form only:

- the advice copy `throw`s on a non-ok or empty catalog;
- its own `catch` then returns the same fallback list that the receipt copy returns directly.

One definition, parameterised by the preferred list, models both.

## Model

| member | source | states |
|---|---|---|
| `ModelOrder.InvocationOrder` | netlify/functions/gemini-receipt.js:22-61 | Every entry is a `v1beta/<name>:generateContent` path, and the order is non-empty whenever the preferred list is. A catalog that threw, was not ok, or lists no model supporting `generateContent` yields exactly the preferred list's paths. |
| `ModelOrder.InvocationOrderFromCatalog` | netlify/functions/gemini-advice.js:30-52 | For a usable catalog: no path repeats; a name has a path iff the catalog supports it; every preferred model precedes every other model. It is the preferred-and-supported part (in preferred order) followed by the other supported names (in first-occurrence catalog order). |
| `ModelOrder.OrderNamesSpec` | netlify/functions/gemini-receipt.js:42-54 | For a duplicate-free preferred list, the two push loops give a duplicate-free list. It holds exactly the supported names, and no preferred name follows a non-preferred one. |
| `ModelOrder.OrderNamesDistinct` | netlify/functions/gemini-advice.js:39-50 | The `includes` guards keep every name out of the order a second time, even when the catalog repeats names. |
| `ModelOrder.OrderNamesCovers` | netlify/functions/gemini-advice.js:39-50 | The order misses no supported model and adds no unsupported one. |
| `ModelOrder.OrderNamesPreferredFirst` | netlify/functions/gemini-receipt.js:43-54 | A preferred model is never placed after a non-preferred one. |
| `ModelOrder.OrderNamesSplits` | netlify/functions/gemini-receipt.js:42-54 | The result of the two loops equals two independent reference definitions concatenated: preferred names filtered by membership in the catalog, then the de-duplicated catalog filtered by non-membership in the preferred list. |
| `ModelOrder.AppendRemainingAppendsNew` | netlify/functions/gemini-receipt.js:50-54 | The second loop appends exactly the catalog names not yet present, once each, in first-occurrence order. |
| `ModelOrder.PathRoundTrip` | netlify/functions/gemini-receipt.js:56 | Building a path from a model name is invertible: the name can be read back from the path. |
| `ModelOrder.PathsFaithful` | netlify/functions/gemini-advice.js:52 | Mapping names to paths keeps and reflects distinctness and membership. |
| `ModelOrder.PreferredListsDistinct` | netlify/functions/gemini-receipt.js:6-14 | The receipt list has 7 distinct models and the advice list (gemini-advice.js:3-13) has 9. |
| `ModelOrder.HandlerOrdersNonEmptyAndDistinct` | netlify/functions/gemini-advice.js:21-57 | Whatever the catalog says, each handler has at least one path to try, and none twice. |
| `Gemini.SupportedNames` | netlify/functions/gemini-receipt.js:32-36 | A name is in the result iff some catalog entry with that name lists `generateContent` in an array of methods. The result is no longer than the catalog. |
| `Gemini.SupportedNamesAppend` | netlify/functions/gemini-advice.js:30-33 | The filter works entry by entry: the names of a concatenated catalog are the names of each part, concatenated. With the length and membership clauses above, this fixes catalog order and multiplicity. |
| `Gemini.NotOkMessage` | netlify/functions/gemini-receipt.js:103 | A non-ok reply records the API's own message when it has one. Otherwise it records `Gemini API error (<status>)`. The message is never empty. |
| `Gemini.NotOkMessageNamesStatus` | netlify/functions/gemini-advice.js:79 | The generic message's digits are decimal digits, and reading them back gives the HTTP status. |
| `Gemini.FirstText` | netlify/functions/gemini-receipt.js:112-113 | When the first candidate has a first part, the result is that part's text. A non-empty result means both exist. |
| `Gemini.TextParts` | netlify/functions/gemini-advice.js:91-95 | Only truthy part texts are kept. The list is empty iff no part of any candidate carries text. |
| `Gemini.PartTextsSnoc` | netlify/functions/gemini-advice.js:93-95 | Within a candidate, one more part adds its text at the end when the text is truthy, and nothing otherwise. So the kept texts are all the truthy texts, in part order. |
| `Gemini.TextPartsOfOne` | netlify/functions/gemini-advice.js:92-93 | A single candidate contributes exactly the kept texts of its own parts. With `TextPartsAppend` and `PartTextsSnoc`, this fixes the whole `flatMap`/`map`/`filter` chain. |
| `Gemini.JoinedText` | netlify/functions/gemini-advice.js:91-98 | The joined advice text is empty exactly when no part of any candidate has text, which is when the loop moves on. One candidate with one part gives that part's text unchanged. |
| `Gemini.JoinedTextSnoc` | netlify/functions/gemini-advice.js:92-96 | One more candidate with one text part adds a newline and that text at the end. |
| `Gemini.TextPartsAppend` | netlify/functions/gemini-advice.js:92-95 | `flatMap` then `filter` distributes over concatenation of the candidate list. |
| `Fallback.TryInOrder` | netlify/functions/gemini-receipt.js:90-138 | The loop sends requests to a prefix of the paths. It succeeds iff some attempt returns. On success the last path requested returned the value and no earlier one did. On failure every path was requested, and the message is non-empty whenever the fallback message is. |
| `Fallback.FirstReturnWins` | netlify/functions/gemini-advice.js:63-100 | If path k is the first whose attempt returns, the loop returns its value after requesting exactly paths 0..k. |
| `Fallback.ExhaustionReportsLast` | netlify/functions/gemini-receipt.js:132-138 | When no attempt returns, every path is requested. The error is the last iteration's recorded message, or the fallback message if that is empty. |
| `Fallback.OnlySettledMatters` | netlify/functions/gemini-advice.js:103-105 | The loop sees an attempt only through what its iteration leaves behind. A `continue` and a caught `throw` with the same message are indistinguishable. |
| `Http.Gate` | netlify/functions/gemini-receipt.js:142-165 | OPTIONS gets 204 with an empty body, any other non-POST method gets 405, and a POST without a key gets 500. Only a POST with a key gets through. The same checks are in gemini-advice.js:112-135. |
| `Strings.RemoveAll` | netlify/functions/gemini-receipt.js:122 | Global removal of a literal never lengthens the text or adds characters, and leaves text without the literal unchanged. |
| `Strings.RemoveAllFirstMatch` | netlify/functions/gemini-receipt.js:122 | At the first match, the text in front of it is kept, the match is deleted, and the scan resumes right after it. With the clause above for text without a match, this fixes the left-to-right, non-overlapping global replacement. |
| `Strings.NoFenceAfterRemoval` | netlify/functions/gemini-receipt.js:122 | After removing every ```` ``` ````, none is left, even where removal joins backticks that were apart. |
| `Strings.Trim` | netlify/functions/gemini-advice.js:140 | The result has no whitespace at either end, and it is empty iff the input is all whitespace. |
| `Strings.TrimIsSlice` | netlify/functions/gemini-receipt.js:122 | The trimmed text is a contiguous piece of the input, and everything before and after it is whitespace. With `Trim`'s clause that the result neither starts nor ends with whitespace, this is exactly `String.prototype.trim`. |
| `Strings.TrimIgnoresPadding` | netlify/functions/gemini-advice.js:140 | Whitespace added at either end does not change the trimmed result. |
| `Strings.TrimIdempotent` | netlify/functions/gemini-advice.js:140 | Trimming twice is the same as trimming once. |
| `Strings.Join` | netlify/functions/gemini-advice.js:96 | One piece joins to itself. Non-empty pieces join to the empty string only when there are none. |
| `Strings.JoinSnoc` | netlify/functions/gemini-advice.js:96 | Joining one more piece appends the separator and that piece. |
| `Strings.Decimal` | netlify/functions/gemini-receipt.js:103 | The status rendered in the template literal is non-empty and all digits, with no leading zero. |
| `Strings.DecimalRoundTrip` | netlify/functions/gemini-advice.js:79 | Reading back the rendered status gives the status. |
| `Sequences.DedupeFollowsOrder` | netlify/functions/gemini-receipt.js:50-54 | Keeping first occurrences lists each catalog name once, in first-occurrence order. |
| `Sequences.FilterFollowsOrder` | netlify/functions/gemini-receipt.js:44-48 | Filtering a list keeps the relative order of what it keeps. |
| `Receipt.CleanFences` | netlify/functions/gemini-receipt.js:122 | The cleaned text contains no ```` ``` ````. Text without backticks is only trimmed. |
| `Receipt.CleanPlainFence` | netlify/functions/gemini-receipt.js:122 | A reply wrapped as ```` ``` … ``` ```` around text with no backtick is cleaned to its trimmed inside, unless that text starts with "json". The first `replace` finds nothing there and the second deletes both fences. |
| `Receipt.CleanFencesIdempotent` | netlify/functions/gemini-receipt.js:122 | Cleaning already cleaned text changes nothing. |
| `Receipt.CleanFencesUnwraps` | netlify/functions/gemini-receipt.js:121-122 | A reply wrapped as ```` ```json … ``` ```` around text with no backtick is cleaned to its trimmed inside. |
| `Receipt.Excerpt` | netlify/functions/gemini-receipt.js:129 | The excerpt in the parse-failure message is the first 50 characters of the cleaned text, or all of it when it is shorter. |
| `Receipt.Attempt` | netlify/functions/gemini-receipt.js:100-135 | An iteration returns iff the reply is ok, has a non-empty first text part, and the cleaned text parses. It then returns the parsed value. Otherwise it leaves a message: the thrown message; the non-ok message; "No text content returned from Gemini."; or the parse-failure prefix, the excerpt of the cleaned text, and "...". |
| `Receipt.Analyze` | netlify/functions/gemini-receipt.js:63-139 | The requested paths are a prefix of the invocation order. Success carries what the last requested path's cleaned first text parses to. Failure has requested every path and carries a non-empty message. |
| `Receipt.AttemptIgnoresClassification` | netlify/functions/gemini-receipt.js:102-109 | Whichever way a non-ok reply is classified, the iteration ends with the same recorded message (line 133 stores a thrown message as it is). |
| `Receipt.AnalyzeIgnoresClassification` | netlify/functions/gemini-receipt.js:92-138 | `analyzeReceiptImage` gives the same result and requests the same paths under any 404 / "not found" / "not supported" classifier. |
| `Receipt.AnalyzeFirstParsedWins` | netlify/functions/gemini-receipt.js:92-124 | The first path whose reply parses gives the result, and no later path is requested. |
| `Receipt.AnalyzeExhausted` | netlify/functions/gemini-receipt.js:132-138 | With no parsable reply, every path is requested. The error is the last message recorded, or the generic message if that was empty. |
| `Receipt.Handle` | netlify/functions/gemini-receipt.js:141-195 | The status is always 200, 204, 400, 405, 500 or 502, and each of 204, 405, 500 and 400 happens iff its condition holds. The model is asked iff the payload has a truthy image and MIME type. A non-JSON or `null` body gives 502 with the engine's message and no request. A payload without a truthy image or MIME type gives exactly the 400 "Image data and mimeType are required." with no request. Once the model is asked, the response is the analysis loop's outcome: 200 with its parsed data on success, otherwise 502 with the loop's own error text, and the paths tried are the loop's. A 200 carries what the last requested path's reply parsed to. A 502 after asking has tried every path and carries a non-empty message. |
| `Gemini.ShouldTryNext` | netlify/functions/gemini-receipt.js:105 | A 404 always asks for the next model. "not found" in lower, upper or title case, and "not supported" in lower or upper case, ask for it at any status. A non-404 reply asks for it only when its message has an `n` or `N`. The advice copy at gemini-advice.js:80-81 is the same test. `Receipt.AnalyzeIgnoresClassification` and `Advice.AdviceIgnoresClassification` show that the choice has no effect on the outcome. |
| `Gemini.ShouldTryNextAnyCase` | netlify/functions/gemini-advice.js:80-81 | The `/i` tests match their phrases in any letter case; a match needs an `n` or `N` in the message. |
| `Receipt.HasImage` | netlify/functions/gemini-receipt.js:168-171 | A bare definition with no contract: the body parsed to a non-null value whose `image` and `mimeType` are both truthy, the negation of the 400 guard `!image \|\| !mimeType`. |
| `Http.BodyText` | netlify/functions/gemini-receipt.js:168 | The text handed to `JSON.parse` is never empty: it is the request body when there is one and `{}` otherwise (also gemini-advice.js:139). |
| `Advice.Attempt` | netlify/functions/gemini-advice.js:76-102 | An iteration returns iff the reply is ok with some text. It then returns the non-empty joined text. |
| `Advice.RequestAdvice` | netlify/functions/gemini-advice.js:59-109 | The requested paths are a prefix of the invocation order. Success carries the non-empty joined text of the last path's ok reply. Failure has requested every path and carries a non-empty message. |
| `Advice.AttemptIgnoresClassification` | netlify/functions/gemini-advice.js:78-89 | A non-ok reply records the same non-empty message whether it is classified as "try next" or thrown into the `catch` at line 104. |
| `Advice.AdviceIgnoresClassification` | netlify/functions/gemini-advice.js:63-106 | `requestGeminiAdvice` gives the same result under any classifier. |
| `Advice.AdviceFirstTextWins` | netlify/functions/gemini-advice.js:63-100 | The first path whose reply has text gives that text, and no later path is requested. |
| `Advice.AdviceExhausted` | netlify/functions/gemini-advice.js:102-108 | With no text anywhere, every path is requested. The error depends on the last reply: its API message if non-ok, the no-advice message if ok but empty, or the thrown message (generic if empty) if the request threw. |
| `Advice.PromptOf` | netlify/functions/gemini-advice.js:137-147 | There is no prompt exactly when the body is not JSON or is `null`, the two cases answered with 400 "Invalid JSON payload.". Any prompt read is already trimmed. A missing or non-string `prompt` reads as the empty string, which is then answered with 400 "Prompt is required.". |
| `Advice.PromptOfText` | netlify/functions/gemini-advice.js:140 | A string prompt is read as its trimmed self, whatever the other fields are. |
| `Advice.Serve` | netlify/functions/gemini-advice.js:157-171 | The response is the advice loop's outcome: 200 with its text on success, otherwise 502 with the loop's own error text, and the paths tried are the loop's. A 200 carries the non-empty joined text of the last path's reply. A 502 has tried every path and carries a non-empty message. |
| `Advice.Handle` | netlify/functions/gemini-advice.js:111-172 | Each of 204, 405, 500 and 400 happens iff its condition holds. Invalid JSON and an empty prompt get their own messages without asking the model. The model is asked iff the status is 200 or 502. |
| `Advice.HandleSeesOnlyPrompt` | netlify/functions/gemini-advice.js:137-158 | Two requests with the same method and the same extracted prompt get the same response. |
| `Advice.HandleIgnoresPromptPadding` | netlify/functions/gemini-advice.js:140 | Whitespace around the prompt string does not change the response. |

## Left out

- Network calls, URLs, where the API key goes (query or header), and `async`/`await`. The catalog outcome and each path's reply are inputs.
- The receipt request body is not modelled: the prompt text, the inline image and its MIME type are the same for every path of one request. So the reply each path gets is a function of the path alone.
- `JSON.parse` and `JSON.stringify`. Parsing is an opaque `Option`-valued function, and response bodies are reduced to status, error text and data.
- The message a JavaScript engine puts in the `SyntaxError` or `TypeError` it raises on a bad request body is one abstract value, `EngineMessage`.
- `process.env` is reduced to whether the key is present and non-empty.
- CORS header values and `console.warn` / `console.error` logging. They are constants or side effects with no effect on the result.
- The receipt instruction prompt, including its date and field rules. Nothing in the code enforces the shape of the returned object.
- Non-string `name` values in a catalog, and the exact wording of JavaScript `TypeError` messages. An ok receipt reply that makes the loop's own code throw is encoded as `Threw` with that `TypeError`'s message. Two replies do this: a body that is JSON `null` (gemini-receipt.js:112 reads `data.candidates`) and a first part whose `text` is truthy but not a string (`replace` at line 122). The `catch` records that message exactly as the model's `Threw` does. In the advice loop these replies do not throw: `data?.candidates` reads `null` as no candidates, and a truthy non-string `text` whose string form is non-empty is the `Part` text in that string form, as `join` renders it.
- A truthy advice `text` whose string form is empty, such as an empty array. `filter(Boolean)` at gemini-advice.js:95 keeps it and `join` at line 96 renders it as "". So `[{text: []}, {text: []}]` joins to "\n", which the source returns as advice. A `Part` can only carry "" for it, which the model drops, so the model moves on to the next path instead. Giving `Part` a separate truthiness flag would cover this, at the cost of every text lemma; the case is left out.
- A non-ok reply whose `error.message` is truthy but not a string and has an empty string form, such as `{"error":{"message":[]}}`. In the source, the classification is observable for it. With status 404 the receipt loop stores the array as `lastError` (gemini-receipt.js:106), line 138 throws an `Error` whose message is "", and line 192 answers 502 "Failed to analyze receipt.". With status 500 line 109 throws `new Error([])`, whose message is "", the `catch` records "", and line 138 throws the exhausted message. `NotOk` carries only a string message, so the model's loop error is never empty. The advice loop is affected the same way: with status 404 line 108 throws an `Error` whose message is "", and line 169 answers 502 "Failed to contact the Gemini API.". The `|| 'Failed to analyze receipt.'` fallback at gemini-receipt.js:192 and `|| 'Failed to contact the Gemini API.'` at gemini-advice.js:169 are never used in the model.
- A `models` field that is not an array is taken to be the empty list, as line 32 of the receipt file does.
- Receipt.Excerpt: counts characters, where `substring(0, 50)` counts UTF-16 code units. The two agree on text without astral characters.
- Strings.MatchesIgnoringCase: folds ASCII letters only. This is exact for the ASCII patterns "not found" and "not supported" without the `u` flag, but the model does not cover Unicode case mapping in general.
- Timeouts and concurrency. Each request is handled alone, and the attempts are strictly sequential.

=== FILE: advice.dfy ===
/**
 The advice endpoint: `requestGeminiAdvice` and its `handler`. Each attempt
 sends the trimmed prompt as the only user turn to one model path; the first
 attempt whose candidates carry any text gives the newline-joined text.
 */
module Advice {
  import opened Common
  import opened Strings
  import opened Gemini
  import opened ModelOrder
  import opened Fallback
  import opened Http

  const NoAdviceMessage: string := "The Gemini API did not return any advice."
  const ContactFailure: string := "Failed to contact the Gemini API."
  const InvalidJsonMessage: string := "Invalid JSON payload."
  const PromptRequiredMessage: string := "Prompt is required."
  const MissingKeyMessage: string := "Gemini API key is not configured on the server."

  /* ---------------------------------------------------------------------- */
  /* requestGeminiAdvice                                                     */
  /* ---------------------------------------------------------------------- */

  /** One iteration of the attempt loop; `tryNext` is the 404 / "not found" / "not supported" classification. */
  function Attempt(reply: Reply, tryNext: (nat, string) -> bool): (s: Step<string>)
    ensures s.Return? <==> reply.Ok? && JoinedText(reply.candidates) != ""
    ensures s.Return? ==> s.value == JoinedText(reply.candidates) && s.value != ""
    ensures s.Throw? ==> reply.Threw? || reply.NotOk?
  {
    match reply
    case Threw(m) => Throw(m)
    case NotOk(status, errorMessage) =>
      var m := NotOkMessage(status, errorMessage);
      if tryNext(status, m) then Continue(m) else Throw(m)
    case Ok(candidates) =>
      var text := JoinedText(candidates);
      if text != "" then Return(text) else Continue(NoAdviceMessage)
  }

  /** The advice loop's `catch` stores `error?.message || 'Failed to contact the Gemini API.'`. */
  const CatchMessage: string -> string := m => Or(m, ContactFailure)

  function AttemptEach(prompt: string, upstream: (string, string) -> Reply, tryNext: (nat, string) -> bool): string -> Step<string>
  {
    p => Attempt(upstream(p, prompt), tryNext)
  }

  /**
   `requestGeminiAdvice`, with `upstream(path, prompt)` the reply a model path
   gives to the prompt. A successful run carries non-empty text; a failed one a
   non-empty message.
   */
  function RequestAdvice(prompt: string, catalog: Catalog, upstream: (string, string) -> Reply,
                         tryNext: (nat, string) -> bool): (run: Run<string>)
    ensures run.attempted <= InvocationOrder(AdvicePreferred, catalog)
    ensures run.result.Success? ==>
              && run.result.value != ""
              && |run.attempted| > 0
              && var reply := upstream(run.attempted[|run.attempted| - 1], prompt);
                 reply.Ok? && JoinedText(reply.candidates) == run.result.value
    ensures run.result.Failure? ==>
              && run.result.error != ""
              && run.attempted == InvocationOrder(AdvicePreferred, catalog)
              && |run.attempted| > 0
  {
    HandlerOrdersNonEmptyAndDistinct(catalog);
    var run := TryInOrder(InvocationOrder(AdvicePreferred, catalog), AttemptEach(prompt, upstream, tryNext),
                          CatchMessage, "", ContactFailure);
    assert run.result.Success? ==>
             AttemptEach(prompt, upstream, tryNext)(run.attempted[|run.attempted| - 1])
             == Attempt(upstream(run.attempted[|run.attempted| - 1], prompt), tryNext);
    run
  }

  /**
   For a non-ok reply, trying the next model and throwing into the `catch`
   record the same non-empty message; no other reply is classified at all.
   */
  lemma AttemptIgnoresClassification(reply: Reply, t1: (nat, string) -> bool, t2: (nat, string) -> bool)
    ensures Settle(Attempt(reply, t1), CatchMessage) == Settle(Attempt(reply, t2), CatchMessage)
    ensures reply.NotOk? ==>
              Settle(Attempt(reply, t1), CatchMessage) == Failure(NotOkMessage(reply.status, reply.errorMessage))
  {
  }

  /** The 404 / "not found" / "not supported" classification has no effect on the loop. */
  lemma AdviceIgnoresClassification(prompt: string, catalog: Catalog, upstream: (string, string) -> Reply,
                                    t1: (nat, string) -> bool, t2: (nat, string) -> bool)
    ensures RequestAdvice(prompt, catalog, upstream, t1) == RequestAdvice(prompt, catalog, upstream, t2)
  {
    var paths := InvocationOrder(AdvicePreferred, catalog);
    forall i | 0 <= i < |paths|
      ensures Settle(AttemptEach(prompt, upstream, t1)(paths[i]), CatchMessage)
           == Settle(AttemptEach(prompt, upstream, t2)(paths[i]), CatchMessage)
    {
      AttemptIgnoresClassification(upstream(paths[i], prompt), t1, t2);
    }
    OnlySettledMatters(paths, AttemptEach(prompt, upstream, t1), AttemptEach(prompt, upstream, t2),
                       CatchMessage, "", ContactFailure);
  }

  /**
   The first path whose reply carries any text gives that joined text, and
   no later path is requested.
   */
  lemma AdviceFirstTextWins(prompt: string, catalog: Catalog, upstream: (string, string) -> Reply,
                            tryNext: (nat, string) -> bool, k: nat)
    requires var paths := InvocationOrder(AdvicePreferred, catalog);
             && k < |paths|
             && upstream(paths[k], prompt).Ok?
             && JoinedText(upstream(paths[k], prompt).candidates) != ""
             && forall i | 0 <= i < k :: !(upstream(paths[i], prompt).Ok? && JoinedText(upstream(paths[i], prompt).candidates) != "")
    ensures var paths := InvocationOrder(AdvicePreferred, catalog);
            RequestAdvice(prompt, catalog, upstream, tryNext)
            == Run(Success(JoinedText(upstream(paths[k], prompt).candidates)), paths[..k + 1])
  {
    var paths := InvocationOrder(AdvicePreferred, catalog);
    FirstReturnWins(paths, AttemptEach(prompt, upstream, tryNext), CatchMessage, "", ContactFailure, k);
  }

  /**
   When no path yields text, every path is requested and the error is the
   message the last attempt recorded: the API's message for a non-ok reply,
   the no-advice message for an empty one, the thrown message (or the generic
   one) for a transport failure.
   */
  lemma AdviceExhausted(prompt: string, catalog: Catalog, upstream: (string, string) -> Reply,
                        tryNext: (nat, string) -> bool)
    requires var paths := InvocationOrder(AdvicePreferred, catalog);
             forall i | 0 <= i < |paths| :: !(upstream(paths[i], prompt).Ok? && JoinedText(upstream(paths[i], prompt).candidates) != "")
    ensures var paths := InvocationOrder(AdvicePreferred, catalog);
            && |paths| > 0
            && var reply := upstream(paths[|paths| - 1], prompt);
               var error := match reply
                            case Threw(m) => Or(m, ContactFailure)
                            case NotOk(status, em) => NotOkMessage(status, em)
                            case Ok(_) => NoAdviceMessage;
               RequestAdvice(prompt, catalog, upstream, tryNext) == Run(Failure(error), paths)
  {
    var paths := InvocationOrder(AdvicePreferred, catalog);
    HandlerOrdersNonEmptyAndDistinct(catalog);
    ExhaustionReportsLast(paths, AttemptEach(prompt, upstream, tryNext), CatchMessage, "", ContactFailure);
  }

  /* ---------------------------------------------------------------------- */
  /* handler                                                                 */
  /* ---------------------------------------------------------------------- */

  /**
   The prompt the handler reads from the parsed body: `None` when the body is
   not JSON or is `null` (reading `.prompt` of `null` throws inside the same
   `try`), otherwise the trimmed string, or "" for a non-string prompt.
   */
  function PromptOf(payload: Option<Payload>): (r: Option<string>)
    ensures r.None? <==> payload in {None, Some(NullPayload)}
    ensures r.Some? ==> r.value == Trim(r.value)
    ensures payload.Some? && payload.value.Value? && !Get(payload.value.fields, "prompt").Text? ==> r == Some("")
  {
    match payload
    case None => None
    case Some(NullPayload) => None
    case Some(Value(fields)) =>
      match Get(fields, "prompt")
      case Text(s) => TrimIdempotent(s); Some(Trim(s))
      case _ => Some("")
  }

  /**
   What the handler does once the prompt is known to be non-empty: 200 with
   the text, or 502 with the loop's error after every path was tried.
   */
  function Serve(prompt: string, catalog: Catalog, upstream: (string, string) -> Reply): (resp: Response<string>)
    ensures resp.status == 200 || resp.status == 502
    ensures |resp.attempted| > 0
    ensures resp.status == 200 ==>
              && resp.body.Data? && resp.body.value != ""
              && var reply := upstream(resp.attempted[|resp.attempted| - 1], prompt);
                 reply.Ok? && JoinedText(reply.candidates) == resp.body.value
    ensures resp.status == 502 ==>
              && resp.attempted == InvocationOrder(AdvicePreferred, catalog)
              && resp.body.ErrorJson? && resp.body.error.Said? && resp.body.error.text != ""
    ensures var run := RequestAdvice(prompt, catalog, upstream, ShouldTryNext);
            && resp.attempted == run.attempted
            && resp.status == (if run.result.Success? then 200 else 502)
            && resp.body == (if run.result.Success? then Data(run.result.value) else ErrorJson(Said(run.result.error)))
  {
    var run := RequestAdvice(prompt, catalog, upstream, ShouldTryNext);
    match run.result
    case Success(text) => Response(200, Data(text), run.attempted)
    case Failure(e) => Response(502, ErrorJson(Said(Or(e, ContactFailure))), run.attempted)
  }

  /**
   The advice `handler`. `keyPresent` says whether the API key is configured
   and `jsonParse` is `JSON.parse` on the request body.
   */
  function Handle(req: Request, keyPresent: bool, jsonParse: string -> Option<Payload>, catalog: Catalog,
                  upstream: (string, string) -> Reply): (resp: Response<string>)
    ensures resp.status in {200, 204, 400, 405, 500, 502}
    ensures resp.status == 204 <==> req.httpMethod == "OPTIONS"
    ensures resp.status == 204 ==> resp.body == NoContent
    ensures resp.status == 405 <==> req.httpMethod != "OPTIONS" && req.httpMethod != "POST"
    ensures resp.status == 500 <==> req.httpMethod == "POST" && !keyPresent
    ensures resp.status == 400 <==>
              req.httpMethod == "POST" && keyPresent && PromptOf(jsonParse(BodyText(req.body))) in {None, Some("")}
    ensures req.httpMethod == "POST" && keyPresent && PromptOf(jsonParse(BodyText(req.body))).None?
            ==> resp == Response(400, ErrorJson(Said(InvalidJsonMessage)), [])
    ensures req.httpMethod == "POST" && keyPresent && PromptOf(jsonParse(BodyText(req.body))) == Some("")
            ==> resp == Response(400, ErrorJson(Said(PromptRequiredMessage)), [])
    ensures resp.attempted != [] <==> resp.status == 200 || resp.status == 502
    ensures resp.status == 200 || resp.status == 502 ==>
              var prompt := PromptOf(jsonParse(BodyText(req.body)));
              prompt.Some? && prompt.value != "" && resp == Serve(prompt.value, catalog, upstream)
  {
    match Gate(req, keyPresent, MissingKeyMessage)
    case Some(early) => early
    case None =>
      match PromptOf(jsonParse(BodyText(req.body)))
      case None => Response(400, ErrorJson(Said(InvalidJsonMessage)), [])
      case Some(prompt) =>
        if prompt == "" then Response(400, ErrorJson(Said(PromptRequiredMessage)), [])
        else Serve(prompt, catalog, upstream)
  }

  /** The handler reads the body only through the prompt it extracts. */
  lemma HandleSeesOnlyPrompt(req: Request, req2: Request, keyPresent: bool,
                             jsonParse: string -> Option<Payload>, jsonParse2: string -> Option<Payload>,
                             catalog: Catalog, upstream: (string, string) -> Reply)
    requires req2.httpMethod == req.httpMethod
    requires PromptOf(jsonParse2(BodyText(req2.body))) == PromptOf(jsonParse(BodyText(req.body)))
    ensures Handle(req2, keyPresent, jsonParse2, catalog, upstream) == Handle(req, keyPresent, jsonParse, catalog, upstream)
  {
  }

  /** Whitespace around the prompt makes no difference to what the handler does. */
  lemma HandleIgnoresPromptPadding(req: Request, keyPresent: bool, jsonParse: string -> Option<Payload>,
                                   catalog: Catalog, upstream: (string, string) -> Reply,
                                   fields: map<string, Field>, ws1: string, prompt: string, ws2: string,
                                   req2: Request, jsonParse2: string -> Option<Payload>)
    requires AllSpace(ws1) && AllSpace(ws2)
    requires req2.httpMethod == req.httpMethod
    requires jsonParse(BodyText(req.body)) == Some(Value(fields["prompt" := Text(prompt)]))
    requires jsonParse2(BodyText(req2.body)) == Some(Value(fields["prompt" := Text(ws1 + prompt + ws2)]))
    ensures Handle(req2, keyPresent, jsonParse2, catalog, upstream) == Handle(req, keyPresent, jsonParse, catalog, upstream)
  {
    PromptOfText(fields, prompt);
    PromptOfText(fields, ws1 + prompt + ws2);
    TrimIgnoresPadding(ws1, prompt, ws2);
    HandleSeesOnlyPrompt(req, req2, keyPresent, jsonParse, jsonParse2, catalog, upstream);
  }

  lemma PromptOfText(fields: map<string, Field>, s: string)
    ensures PromptOf(Some(Value(fields["prompt" := Text(s)]))) == Some(Trim(s))
  {
    assert Get(fields["prompt" := Text(s)], "prompt") == Text(s);
  }
}

=== FILE: common.dfy ===
/**
 Values shared by both handlers: optional values, success-or-message results,
 and JavaScript's `a || b` on strings (the empty string is falsy).
 */
module Common {

  /** A value that may be absent (`undefined`, a failed `JSON.parse`, ...). */
  datatype Option<+T> = None | Some(value: T)

  /** A computation that either produced a value or failed with an `Error` message. */
  datatype Result<+T> = Success(value: T) | Failure(error: string)

  /** JavaScript `a || b` where both sides are strings: `a` unless it is empty. */
  function Or(a: string, b: string): string
  {
    if a != "" then a else b
  }
}

=== FILE: fallback.dfy ===
/**
 The sequential fallback loop both handlers run over the model paths: try
 each path in order, stop at the first attempt that returns a value, and
 otherwise remember an error message and go on. An attempt that `throw`s
 inside the per-iteration `try` is caught there, so it records a message
 exactly like one that `continue`s; only exhausting the list fails.
 */
module Fallback {
  import opened Common

  /**
   How one iteration of the loop body ends: `return value`, `lastError = recorded; continue`,
   or `throw new Error(message)` (caught by the iteration's own `catch`).
   */
  datatype Step<+T> = Return(value: T) | Continue(recorded: string) | Throw(message: string)

  /**
   What an iteration leaves behind once its `catch` has run: the returned
   value, or the new `lastError`, where `caught` is what the `catch` stores
   for a thrown message.
   */
  function Settle<T>(step: Step<T>, caught: string -> string): Result<T>
  {
    match step
    case Return(v) => Success(v)
    case Continue(e) => Failure(e)
    case Throw(m) => Failure(caught(m))
  }

  /** The loop's result and the paths it sent a request to, in order. */
  datatype Run<+T> = Run(result: Result<T>, attempted: seq<string>)

  /**
   `for (const path of paths) { try { ... } catch { ... } }` followed by
   `throw new Error(lastError || exhausted)`, starting from `lastError`.
   */
  function TryInOrder<T>(paths: seq<string>, attempt: string -> Step<T>, caught: string -> string,
                         lastError: string, exhausted: string): (run: Run<T>)
    ensures run.attempted <= paths
    ensures run.result.Success? <==> exists i | 0 <= i < |paths| :: attempt(paths[i]).Return?
    ensures run.result.Success? ==>
              && |run.attempted| > 0
              && attempt(run.attempted[|run.attempted| - 1]) == Return(run.result.value)
              && forall i | 0 <= i < |run.attempted| - 1 :: !attempt(run.attempted[i]).Return?
    ensures run.result.Failure? ==> run.attempted == paths
    ensures run.result.Failure? && exhausted != "" ==> run.result.error != ""
    decreases |paths|
  {
    if |paths| == 0 then Run(Failure(Or(lastError, exhausted)), [])
    else
      match Settle(attempt(paths[0]), caught)
      case Success(v) => Run(Success(v), [paths[0]])
      case Failure(e) =>
        var rest := TryInOrder(paths[1..], attempt, caught, e, exhausted);
        assert forall i | 1 <= i < |paths| :: paths[i] == paths[1..][i - 1];
        Run(rest.result, [paths[0]] + rest.attempted)
  }

  /**
   The first attempt that returns decides the result, and nothing after it
   is requested.
   */
  lemma {:induction false} FirstReturnWins<T>(paths: seq<string>, attempt: string -> Step<T>, caught: string -> string,
                                              lastError: string, exhausted: string, k: nat)
    requires k < |paths| && attempt(paths[k]).Return?
    requires forall i | 0 <= i < k :: !attempt(paths[i]).Return?
    ensures TryInOrder(paths, attempt, caught, lastError, exhausted)
            == Run(Success(attempt(paths[k]).value), paths[..k + 1])
    decreases k
  {
    if k > 0 {
      var e := Settle(attempt(paths[0]), caught).error;
      FirstReturnWins(paths[1..], attempt, caught, e, exhausted, k - 1);
      assert [paths[0]] + paths[1..][..k] == paths[..k + 1];
    }
  }

  /**
   When no attempt returns, every path is tried and the error is what the
   last attempt recorded, or `exhausted` if that is empty.
   */
  lemma {:induction false} ExhaustionReportsLast<T>(paths: seq<string>, attempt: string -> Step<T>, caught: string -> string,
                                                    lastError: string, exhausted: string)
    requires |paths| > 0
    requires forall i | 0 <= i < |paths| :: !attempt(paths[i]).Return?
    ensures TryInOrder(paths, attempt, caught, lastError, exhausted)
            == Run(Failure(Or(Settle(attempt(paths[|paths| - 1]), caught).error, exhausted)), paths)
    decreases |paths|
  {
    var e := Settle(attempt(paths[0]), caught).error;
    if |paths| > 1 {
      ExhaustionReportsLast(paths[1..], attempt, caught, e, exhausted);
    }
  }

  /**
   The loop observes an attempt only through what its iteration settles to:
   attempts that settle alike on every path give the same run.
   */
  lemma {:induction false} OnlySettledMatters<T>(paths: seq<string>, a1: string -> Step<T>, a2: string -> Step<T>,
                                                 caught: string -> string, lastError: string, exhausted: string)
    requires forall i | 0 <= i < |paths| :: Settle(a1(paths[i]), caught) == Settle(a2(paths[i]), caught)
    ensures TryInOrder(paths, a1, caught, lastError, exhausted) == TryInOrder(paths, a2, caught, lastError, exhausted)
    decreases |paths|
  {
    if |paths| > 0 && Settle(a1(paths[0]), caught).Failure? {
      var e := Settle(a1(paths[0]), caught).error;
      OnlySettledMatters(paths[1..], a1, a2, caught, e, exhausted);
    }
  }
}

=== FILE: gemini.dfy ===
/**
 What the handlers see of the Gemini HTTP API, with all I/O abstracted away:
 the model catalog returned by the list-models call, and the outcome of one
 `generateContent` call. JSON bodies are reduced to the fields the handlers
 read; a missing or falsy string field is the empty string.
 */
module Gemini {
  import opened Common
  import opened Strings

  /* ---------------------------------------------------------------------- */
  /* Model catalog                                                           */
  /* ---------------------------------------------------------------------- */

  /**
   One element of `data.models`: its `name` and its `supportedGenerationMethods`,
   `None` when that field is not an array (or the element itself is not an object).
   */
  datatype Entry = Entry(name: string, methods: Option<seq<string>>)

  /**
   The outcome of the list-models request: `fetch` (or reading the body)
   threw, the response was not ok, or it was ok with the given `models`
   (the empty list when `data.models` is not an array).
   */
  datatype Catalog = CatalogThrew | CatalogNotOk | CatalogOk(models: seq<Entry>)

  const GenerateContent: string := "generateContent"

  /** The entry advertises `generateContent` in an array of methods. */
  predicate Supports(e: Entry)
  {
    e.methods.Some? && GenerateContent in e.methods.value
  }

  /** `models.filter(supports generateContent).map(m => m.name)`. */
  function SupportedNames(models: seq<Entry>): (r: seq<string>)
    ensures |r| <= |models|
    ensures forall i | 0 <= i < |models| && Supports(models[i]) :: models[i].name in r
    ensures forall n | n in r :: exists i | 0 <= i < |models| :: Supports(models[i]) && models[i].name == n
  {
    if |models| == 0 then []
    else
      var rest := SupportedNames(models[1..]);
      assert forall n | n in rest :: exists i | 0 <= i < |models| :: Supports(models[i]) && models[i].name == n by {
        forall n | n in rest
          ensures exists i | 0 <= i < |models| :: Supports(models[i]) && models[i].name == n
        {
          var j :| 0 <= j < |models[1..]| && Supports(models[1..][j]) && models[1..][j].name == n;
          assert models[j + 1] == models[1..][j];
        }
      }
      assert forall i | 1 <= i < |models| && Supports(models[i]) :: models[i].name in rest by {
        forall i | 1 <= i < |models| && Supports(models[i])
          ensures models[i].name in rest
        {
          assert models[1..][i - 1] == models[i];
        }
      }
      if Supports(models[0]) then [models[0].name] + rest else rest
  }

  /**
   The filter works entry by entry, so the supported names of a catalog keep
   its order and multiplicity.
   */
  lemma {:induction false} SupportedNamesAppend(a: seq<Entry>, b: seq<Entry>)
    ensures SupportedNames(a + b) == SupportedNames(a) + SupportedNames(b)
    decreases |a|
  {
    if |a| == 0 {
      assert a + b == b;
    } else {
      assert (a + b)[1..] == a[1..] + b;
      SupportedNamesAppend(a[1..], b);
    }
  }

  /* ---------------------------------------------------------------------- */
  /* One generateContent call                                                */
  /* ---------------------------------------------------------------------- */

  /** A content part; `text` is empty when the part has no truthy `text`. */
  datatype Part = Part(text: string)

  /** A response candidate, reduced to `content.parts` (empty when absent). */
  datatype Candidate = Candidate(parts: seq<Part>)

  /**
   The outcome of one attempt: something threw before a response was read
   (with `error.message`, possibly empty), the response was not ok (with its
   status and `data.error.message`, empty when absent), or it was ok with
   `data.candidates` (empty when not an array).

   An ok response that makes the receipt loop's own code throw is a `Threw`
   with that error's message: a body that is JSON `null` (reading
   `data.candidates` throws a `TypeError`), and a first text part whose `text`
   is truthy but not a string (calling `replace` on it throws a `TypeError`).
   In the advice loop neither throws: `data?.candidates` reads `null` as no
   candidates, and `join` turns a truthy non-string `text` into its string
   form, which is the `text` of the `Part` when that form is non-empty. A
   truthy `text` whose string form is empty (an empty array, say) has no
   `Part` encoding: `filter(Boolean)` keeps it and `join` renders it as "".
   */
  datatype Reply =
    | Threw(message: string)
    | NotOk(status: nat, errorMessage: string)
    | Ok(candidates: seq<Candidate>)

  const StatusPrefix: string := "Gemini API error ("

  /**
   The message recorded for a non-ok response: the API's own message, or a
   generic one naming the status. It is never empty.
   */
  function NotOkMessage(status: nat, errorMessage: string): (m: string)
    ensures m != ""
    ensures errorMessage != "" ==> m == errorMessage
    ensures errorMessage == "" ==>
              && StatusPrefix <= m && m[|m| - 1] == ')'
              && Decimal(status) == m[|StatusPrefix|..|m| - 1]
  {
    var generic := StatusPrefix + Decimal(status) + ")";
    assert generic[|StatusPrefix|..|generic| - 1] == Decimal(status);
    Or(errorMessage, generic)
  }

  /** The generic status message names the status: reading its digits back gives it. */
  lemma NotOkMessageNamesStatus(status: nat)
    ensures var m := NotOkMessage(status, "");
            var digits := m[|StatusPrefix|..|m| - 1];
            (forall i | 0 <= i < |digits| :: IsDigit(digits[i])) && DecimalValue(digits) == status
  {
    DecimalRoundTrip(status);
  }

  /** `response.status === 404 || /not found/i.test(m) || /not supported/i.test(m)`. */
  predicate ShouldTryNext(status: nat, message: string): (r: bool)
    ensures status == 404 ==> r
    ensures Occurs("not found", message) || Occurs("NOT FOUND", message) || Occurs("Not Found", message) ==> r
    ensures Occurs("not supported", message) || Occurs("NOT SUPPORTED", message) ==> r
    ensures r ==> status == 404 || 'n' in message || 'N' in message
  {
    ShouldTryNextAnyCase(status, message);
    status == 404 || MatchesIgnoringCase(message, "not found") || MatchesIgnoringCase(message, "not supported")
  }

  /** The phrases are matched in any letter case, and a match needs an `n` or `N` in the message. */
  lemma ShouldTryNextAnyCase(status: nat, message: string)
    ensures Occurs("not found", message) || Occurs("NOT FOUND", message) || Occurs("Not Found", message)
            ==> MatchesIgnoringCase(message, "not found")
    ensures Occurs("not supported", message) || Occurs("NOT SUPPORTED", message)
            ==> MatchesIgnoringCase(message, "not supported")
    ensures MatchesIgnoringCase(message, "not found") || MatchesIgnoringCase(message, "not supported")
            ==> 'n' in message || 'N' in message
  {
    FoundSpellings(message);
    SupportedSpellings(message);
    MatchNeedsHead(message, "not found");
    MatchNeedsHead(message, "not supported");
    if MatchesIgnoringCase(message, "not found") || MatchesIgnoringCase(message, "not supported") {
      var i :| 0 <= i < |message| && AsciiLower(message[i]) == AsciiLower('n');
      assert message[i] == 'n' || message[i] == 'N';
    }
  }

  lemma FoundSpellings(message: string)
    ensures Occurs("not found", message) || Occurs("NOT FOUND", message) || Occurs("Not Found", message)
            ==> MatchesIgnoringCase(message, "not found")
  {
    assert Lower("NOT FOUND") == "not found";
    assert Lower("Not Found") == "not found";
    assert Lower("not found") == "not found";
    FoldedOccurrence(message, "not found", "not found");
    FoldedOccurrence(message, "NOT FOUND", "not found");
    FoldedOccurrence(message, "Not Found", "not found");
  }

  lemma SupportedSpellings(message: string)
    ensures Occurs("not supported", message) || Occurs("NOT SUPPORTED", message)
            ==> MatchesIgnoringCase(message, "not supported")
  {
    assert Lower("NOT SUPPORTED") == "not supported";
    assert Lower("not supported") == "not supported";
    FoldedOccurrence(message, "not supported", "not supported");
    FoldedOccurrence(message, "NOT SUPPORTED", "not supported");
  }

  /** `candidates?.[0]?.content?.parts?.[0]?.text`, empty when any link is missing. */
  function FirstText(cs: seq<Candidate>): (r: string)
    ensures |cs| > 0 && |cs[0].parts| > 0 ==> r == cs[0].parts[0].text
    ensures r != "" ==> |cs| > 0 && |cs[0].parts| > 0
  {
    if |cs| > 0 && |cs[0].parts| > 0 then cs[0].parts[0].text else ""
  }

  /** The truthy texts of a list of parts, in order. */
  function PartTexts(ps: seq<Part>): (r: seq<string>)
    ensures forall k | 0 <= k < |r| :: r[k] != ""
    ensures r == [] <==> forall j | 0 <= j < |ps| :: ps[j].text == ""
  {
    if |ps| == 0 then []
    else
      var rest := PartTexts(ps[1..]);
      assert (forall j | 0 <= j < |ps[1..]| :: ps[1..][j].text == "") <==> (forall j | 1 <= j < |ps| :: ps[j].text == "") by {
        if forall j | 0 <= j < |ps[1..]| :: ps[1..][j].text == "" {
          forall j | 1 <= j < |ps| ensures ps[j].text == "" {
            assert ps[1..][j - 1] == ps[j];
          }
        }
      }
      (if ps[0].text != "" then [ps[0].text] else []) + rest
  }

  /** One more part adds its text at the end when it is truthy, and nothing otherwise. */
  lemma {:induction false} PartTextsSnoc(ps: seq<Part>, p: Part)
    ensures PartTexts(ps + [p]) == PartTexts(ps) + (if p.text != "" then [p.text] else [])
    decreases |ps|
  {
    if |ps| == 0 {
      assert ps + [p] == [p];
    } else {
      assert (ps + [p])[1..] == ps[1..] + [p];
      PartTextsSnoc(ps[1..], p);
    }
  }

  /** `candidates.flatMap(c => c.content.parts).map(p => p.text).filter(Boolean)`. */
  function TextParts(cs: seq<Candidate>): (r: seq<string>)
    ensures forall k | 0 <= k < |r| :: r[k] != ""
    ensures r == [] <==> forall i, j | 0 <= i < |cs| && 0 <= j < |cs[i].parts| :: cs[i].parts[j].text == ""
  {
    if |cs| == 0 then []
    else
      var rest := TextParts(cs[1..]);
      assert (forall i, j | 0 <= i < |cs[1..]| && 0 <= j < |cs[1..][i].parts| :: cs[1..][i].parts[j].text == "")
         <==> (forall i, j | 1 <= i < |cs| && 0 <= j < |cs[i].parts| :: cs[i].parts[j].text == "") by {
        if forall i, j | 0 <= i < |cs[1..]| && 0 <= j < |cs[1..][i].parts| :: cs[1..][i].parts[j].text == "" {
          forall i, j | 1 <= i < |cs| && 0 <= j < |cs[i].parts| ensures cs[i].parts[j].text == "" {
            assert cs[1..][i - 1] == cs[i];
          }
        }
      }
      PartTexts(cs[0].parts) + rest
  }

  /** The advice text: every truthy text part of every candidate, joined with newlines. */
  function JoinedText(cs: seq<Candidate>): (r: string)
    ensures r == "" <==> forall i, j | 0 <= i < |cs| && 0 <= j < |cs[i].parts| :: cs[i].parts[j].text == ""
    ensures |cs| == 1 && |cs[0].parts| == 1 ==> r == cs[0].parts[0].text
  {
    assert |cs| == 1 && |cs[0].parts| == 1 ==> cs[1..] == [] && cs[0].parts[1..] == [];
    Join(TextParts(cs), "\n")
  }

  /** Adding a candidate with one text part appends a newline and that text. */
  lemma {:induction false} JoinedTextSnoc(cs: seq<Candidate>, t: string)
    requires t != "" && TextParts(cs) != []
    ensures JoinedText(cs + [Candidate([Part(t)])]) == JoinedText(cs) + "\n" + t
    decreases |cs|
  {
    TextPartsAppend(cs, [Candidate([Part(t)])]);
    assert TextParts([Candidate([Part(t)])]) == [t];
    JoinSnoc(TextParts(cs), t, "\n");
  }

  /** A single candidate contributes the truthy texts of its own parts. */
  lemma TextPartsOfOne(c: Candidate)
    ensures TextParts([c]) == PartTexts(c.parts)
  {
    assert [c][1..] == [];
  }

  lemma {:induction false} TextPartsAppend(a: seq<Candidate>, b: seq<Candidate>)
    ensures TextParts(a + b) == TextParts(a) + TextParts(b)
    decreases |a|
  {
    if |a| == 0 {
      assert a + b == b;
    } else {
      assert (a + b)[1..] == a[1..] + b;
      TextPartsAppend(a[1..], b);
    }
  }
}

=== FILE: http.dfy ===
/**
 The serverless-function surface both handlers share: the incoming event,
 the parsed JSON payload reduced to the fields the handlers read, and the
 response. Header values (CORS) are constants with no behaviour and are not
 represented.
 */
module Http {
  import opened Common

  /** `event.httpMethod` and `event.body` (the empty string when absent). */
  datatype Request = Request(httpMethod: string, body: string)

  /** A property of the parsed payload: a string, or some other truthy or falsy value. */
  datatype Field = Text(s: string) | OtherTruthy | Falsy

  /**
   The value `JSON.parse` produced: `null`, or any other value with the named
   properties it has (a number, string or array has none of the ones read here).
   */
  datatype Payload = NullPayload | Value(fields: map<string, Field>)

  /** Reading a property; a missing one is `undefined`, which is falsy. */
  function Get(fields: map<string, Field>, key: string): Field
  {
    if key in fields then fields[key] else Falsy
  }

  predicate Truthy(f: Field)
  {
    match f
    case Text(s) => s != ""
    case OtherTruthy => true
    case Falsy => false
  }

  /** `event.body || '{}'`: the text handed to `JSON.parse`. */
  function BodyText(body: string): (r: string)
    ensures r != ""
    ensures body != "" ==> r == body
    ensures body == "" ==> r == "{}"
  {
    Or(body, "{}")
  }

  /**
   The `error` string of an error response: a known string, or the message the
   JavaScript engine puts in a `SyntaxError` or `TypeError` it raises.
   */
  datatype Message = Said(text: string) | EngineMessage

  datatype Body<+T> = NoContent | ErrorJson(error: Message) | Data(value: T)

  /**
   The handler's response: status, body, and the model paths the handler sent
   a generation request to while serving it.
   */
  datatype Response<+T> = Response(status: nat, body: Body<T>, attempted: seq<string>)

  const MethodNotAllowed: string := "Method not allowed"

  /**
   The checks both handlers make before reading the body: a preflight gets
   204 with an empty body, any other method but POST gets 405, and a missing
   API key gets 500 with `keyMessage`. `None` means all three passed.
   */
  function Gate<T>(req: Request, keyPresent: bool, keyMessage: string): (r: Option<Response<T>>)
    ensures r.None? <==> req.httpMethod == "POST" && keyPresent
    ensures r.Some? ==> r.value.attempted == []
    ensures r.Some? && r.value.status == 204 <==> req.httpMethod == "OPTIONS"
    ensures r.Some? && r.value.status == 204 ==> r.value.body == NoContent
    ensures r.Some? && r.value.status == 405 <==> req.httpMethod != "OPTIONS" && req.httpMethod != "POST"
    ensures r.Some? && r.value.status == 500 <==> req.httpMethod == "POST" && !keyPresent
  {
    if req.httpMethod == "OPTIONS" then Some(Response(204, NoContent, []))
    else if req.httpMethod != "POST" then Some(Response(405, ErrorJson(Said(MethodNotAllowed)), []))
    else if !keyPresent then Some(Response(500, ErrorJson(Said(keyMessage)), []))
    else None
  }
}

=== FILE: model_order.dfy ===
/**
 `buildModelInvocationOrder`, shared by both handlers and parameterised by
 each file's constant list of preferred models. Given the catalog, it lists
 the preferred models the catalog supports (in preferred order), then every
 other supported model (in first-occurrence catalog order), and maps each to
 its `generateContent` path. A failed catalog, or one with no supported
 model, yields the preferred list itself.
 */
module ModelOrder {
  import opened Sequences
  import opened Gemini

  /** The receipt handler's preferred (vision-capable) models. */
  const ReceiptPreferred: seq<string> := [
    "models/gemini-1.5-flash-latest",
    "models/gemini-1.5-flash-002",
    "models/gemini-1.5-flash",
    "models/gemini-1.5-flash-8b-latest",
    "models/gemini-1.5-pro-latest",
    "models/gemini-1.5-pro",
    "models/gemini-pro-vision"
  ]

  /** The advice handler's preferred models. */
  const AdvicePreferred: seq<string> := [
    "models/gemini-1.5-flash-latest",
    "models/gemini-1.5-flash-002",
    "models/gemini-1.5-flash",
    "models/gemini-1.5-flash-8b-latest",
    "models/gemini-1.5-pro-latest",
    "models/gemini-1.5-pro",
    "models/gemini-1.0-pro",
    "models/gemini-1.0-pro-001",
    "models/gemini-pro"
  ]

  lemma PreferredListsDistinct()
    ensures NoDup(ReceiptPreferred) && |ReceiptPreferred| == 7
    ensures NoDup(AdvicePreferred) && |AdvicePreferred| == 9
  {
  }

  /* ---------------------------------------------------------------------- */
  /* Paths                                                                   */
  /* ---------------------------------------------------------------------- */

  const PathPrefix: string := "v1beta/"
  const PathSuffix: string := ":generateContent"

  /** `` `v1beta/${name}:generateContent` ``. */
  function PathFor(name: string): string
  {
    PathPrefix + name + PathSuffix
  }

  predicate IsModelPath(path: string)
  {
    && |path| >= |PathPrefix| + |PathSuffix|
    && PathPrefix <= path
    && path[|path| - |PathSuffix|..] == PathSuffix
  }

  /** The model name inside a path. */
  function NameOf(path: string): (name: string)
    requires IsModelPath(path)
    ensures PathFor(name) == path
  {
    var name := path[|PathPrefix|..|path| - |PathSuffix|];
    assert path == path[..|PathPrefix|] + name + path[|path| - |PathSuffix|..];
    name
  }

  /** A path determines its model name: the mapping to paths loses nothing. */
  lemma PathRoundTrip(name: string)
    ensures IsModelPath(PathFor(name))
    ensures NameOf(PathFor(name)) == name
  {
    var p := PathFor(name);
    assert p[|PathPrefix|..|p| - |PathSuffix|] == name;
  }

  /** `names.map(PathFor)`. */
  function Paths(names: seq<string>): (r: seq<string>)
    ensures |r| == |names|
    ensures forall i | 0 <= i < |r| :: IsModelPath(r[i]) && NameOf(r[i]) == names[i]
  {
    seq(|names|, i requires 0 <= i < |names| => PathRoundTrip(names[i]); PathFor(names[i]))
  }

  /** Mapping names to paths keeps and reflects distinctness, and keeps membership. */
  lemma PathsFaithful(names: seq<string>)
    ensures NoDup(Paths(names)) <==> NoDup(names)
    ensures forall x :: PathFor(x) in Paths(names) <==> x in names
  {
    var r := Paths(names);
    forall x | PathFor(x) in r ensures x in names {
      var i :| 0 <= i < |r| && r[i] == PathFor(x);
      PathRoundTrip(x);
    }
    forall x | x in names ensures PathFor(x) in r {
      var i :| 0 <= i < |names| && names[i] == x;
      assert r[i] == PathFor(x);
    }
  }

  /* ---------------------------------------------------------------------- */
  /* The two loops                                                           */
  /* ---------------------------------------------------------------------- */

  function In(s: seq<string>): string -> bool
  {
    x => x in s
  }

  function NotIn(s: seq<string>): string -> bool
  {
    x => x !in s
  }

  /** First loop: the preferred models that `supported` includes, in preferred order. */
  function PreferredPart(preferred: seq<string>, supported: seq<string>): seq<string>
  {
    Filter(preferred, In(supported))
  }

  /**
   Second loop: push each supported name, in catalog order, unless the list
   built so far already includes it.
   */
  function AppendRemaining(ordered: seq<string>, supported: seq<string>): seq<string>
  {
    if |supported| == 0 then ordered
    else
      var o := AppendRemaining(ordered, supported[..|supported| - 1]);
      if supported[|supported| - 1] in o then o else o + [supported[|supported| - 1]]
  }

  /** The model names in invocation order, before mapping to paths. */
  function OrderNames(preferred: seq<string>, supported: seq<string>): seq<string>
  {
    AppendRemaining(PreferredPart(preferred, supported), supported)
  }

  /** The names the second loop adds: first occurrences in the catalog that are not preferred. */
  function OtherPart(preferred: seq<string>, supported: seq<string>): seq<string>
  {
    Filter(Dedupe(supported), NotIn(preferred))
  }

  /**
   The second loop appends exactly the first occurrences of the supported
   names that were not already listed, in catalog order.
   */
  lemma {:induction false} AppendRemainingAppendsNew(ordered: seq<string>, supported: seq<string>)
    ensures AppendRemaining(ordered, supported) == ordered + Filter(Dedupe(supported), NotIn(ordered))
  {
    if |supported| > 0 {
      var init := supported[..|supported| - 1];
      var last := supported[|supported| - 1];
      AppendRemainingAppendsNew(ordered, init);
      var d := Dedupe(init);
      var w := Filter(d, NotIn(ordered));
      assert last in ordered + w <==> last in ordered || last in init;
      if last !in d {
        var d' := d + [last];
        assert Dedupe(supported) == d';
        assert d'[..|d'| - 1] == d;
        assert Filter(d', NotIn(ordered)) == if last in ordered then w else w + [last];
      }
    }
  }

  /**
   The order lists the preferred-and-supported names first, then the
   remaining supported names in catalog order.
   */
  lemma OrderNamesSplits(preferred: seq<string>, supported: seq<string>)
    ensures OrderNames(preferred, supported) == PreferredPart(preferred, supported) + OtherPart(preferred, supported)
  {
    var k := PreferredPart(preferred, supported);
    AppendRemainingAppendsNew(k, supported);
    var d := Dedupe(supported);
    forall i | 0 <= i < |d| ensures NotIn(k)(d[i]) == NotIn(preferred)(d[i]) {
      assert d[i] in supported;
      assert d[i] in k <==> d[i] in preferred;
    }
    FilterAgree(d, NotIn(k), NotIn(preferred));
  }

  /** Properties of the two parts taken separately. */
  lemma PartsOrdered(preferred: seq<string>, supported: seq<string>)
    requires NoDup(preferred)
    ensures FollowsOrderOf(PreferredPart(preferred, supported), preferred)
    ensures FollowsOrderOf(OtherPart(preferred, supported), supported)
    ensures forall x | x in PreferredPart(preferred, supported) :: x in preferred && x in supported
    ensures forall x | x in OtherPart(preferred, supported) :: x !in preferred && x in supported
  {
    NoDupFollowsItself(preferred);
    FilterFollowsOrder(preferred, In(supported), preferred);
    DedupeFollowsOrder(supported);
    FilterFollowsOrder(Dedupe(supported), NotIn(preferred), supported);
  }

  /**
   The invocation order over a non-empty list of supported names: distinct,
   exactly the supported names, and every preferred name before every other.
   */
  lemma OrderNamesSpec(preferred: seq<string>, supported: seq<string>)
    requires NoDup(preferred)
    ensures var r := OrderNames(preferred, supported);
            && NoDup(r)
            && (forall x :: x in r <==> x in supported)
            && (forall i, j | 0 <= i < j < |r| :: r[j] in preferred ==> r[i] in preferred)
  {
    OrderNamesDistinct(preferred, supported);
    OrderNamesCovers(preferred, supported);
    OrderNamesPreferredFirst(preferred, supported);
  }

  /** No name appears twice in the order. */
  lemma OrderNamesDistinct(preferred: seq<string>, supported: seq<string>)
    requires NoDup(preferred)
    ensures NoDup(OrderNames(preferred, supported))
  {
    var k := PreferredPart(preferred, supported);
    var o := OtherPart(preferred, supported);
    var r := OrderNames(preferred, supported);
    OrderNamesSplits(preferred, supported);
    PartsOrdered(preferred, supported);
    FollowsOrderHasNoDup(k, preferred);
    FollowsOrderHasNoDup(o, supported);
    forall i, j | 0 <= i < j < |r| ensures r[i] != r[j] {
      if j < |k| {
        assert r[i] == k[i] && r[j] == k[j];
      } else if i >= |k| {
        assert r[i] == o[i - |k|] && r[j] == o[j - |k|];
      } else {
        assert r[i] == k[i] && r[j] == o[j - |k|];
        assert r[i] in preferred && r[j] !in preferred;
      }
    }
  }

  /** The order holds exactly the supported names. */
  lemma OrderNamesCovers(preferred: seq<string>, supported: seq<string>)
    ensures forall x :: x in OrderNames(preferred, supported) <==> x in supported
  {
    var k := PreferredPart(preferred, supported);
    var o := OtherPart(preferred, supported);
    var r := OrderNames(preferred, supported);
    OrderNamesSplits(preferred, supported);
    forall x | x in supported ensures x in r {
      if x in preferred {
        assert x in k;
      } else {
        assert x in Dedupe(supported);
        assert x in o;
      }
    }
    forall x | x in r ensures x in supported {
      if x in k {
        assert x in supported;
      } else {
        assert x in o;
        assert x in Dedupe(supported);
      }
    }
  }

  /** Every preferred name comes before every other name. */
  lemma OrderNamesPreferredFirst(preferred: seq<string>, supported: seq<string>)
    ensures var r := OrderNames(preferred, supported);
            forall i, j | 0 <= i < j < |r| :: r[j] in preferred ==> r[i] in preferred
  {
    var k := PreferredPart(preferred, supported);
    var o := OtherPart(preferred, supported);
    var r := OrderNames(preferred, supported);
    OrderNamesSplits(preferred, supported);
    forall j | |k| <= j < |r| ensures r[j] !in preferred {
      assert r[j] == o[j - |k|];
    }
    forall i | 0 <= i < |k| ensures r[i] in preferred {
      assert r[i] == k[i];
    }
  }

  /* ---------------------------------------------------------------------- */
  /* buildModelInvocationOrder                                               */
  /* ---------------------------------------------------------------------- */

  /** The model paths to try, in order. */
  function InvocationOrder(preferred: seq<string>, catalog: Catalog): (r: seq<string>)
    ensures forall i | 0 <= i < |r| :: IsModelPath(r[i])
    ensures |preferred| > 0 ==> |r| > 0
    ensures !(catalog.CatalogOk? && SupportedNames(catalog.models) != []) ==> r == Paths(preferred)
  {
    match catalog
    case CatalogThrew => Paths(preferred)
    case CatalogNotOk => Paths(preferred)
    case CatalogOk(models) =>
      var supported := SupportedNames(models);
      if |supported| == 0 then Paths(preferred)
      else
        OrderNamesSplits(preferred, supported);
        assert supported[0] in Dedupe(supported);
        assert supported[0] in PreferredPart(preferred, supported) || supported[0] in OtherPart(preferred, supported);
        Paths(OrderNames(preferred, supported))
  }

  /**
   With a catalog that lists at least one supported model, the order is
   distinct, names exactly the supported models, lists every preferred one
   before every other, keeps preferred order among the preferred ones and
   first-occurrence catalog order among the rest.
   */
  lemma InvocationOrderFromCatalog(preferred: seq<string>, models: seq<Entry>)
    requires NoDup(preferred)
    requires SupportedNames(models) != []
    ensures var supported := SupportedNames(models);
            var r := InvocationOrder(preferred, CatalogOk(models));
            && NoDup(r)
            && (forall x :: PathFor(x) in r <==> x in supported)
            && (forall i, j | 0 <= i < j < |r| :: NameOf(r[j]) in preferred ==> NameOf(r[i]) in preferred)
            && r == Paths(PreferredPart(preferred, supported) + OtherPart(preferred, supported))
            && FollowsOrderOf(PreferredPart(preferred, supported), preferred)
            && FollowsOrderOf(OtherPart(preferred, supported), supported)
  {
    var supported := SupportedNames(models);
    OrderNamesSpec(preferred, supported);
    OrderNamesSplits(preferred, supported);
    PartsOrdered(preferred, supported);
    PathsFaithful(OrderNames(preferred, supported));
  }

  /** For each handler's own list, the order is never empty and never repeats a path. */
  lemma HandlerOrdersNonEmptyAndDistinct(catalog: Catalog)
    ensures |InvocationOrder(ReceiptPreferred, catalog)| > 0 && NoDup(InvocationOrder(ReceiptPreferred, catalog))
    ensures |InvocationOrder(AdvicePreferred, catalog)| > 0 && NoDup(InvocationOrder(AdvicePreferred, catalog))
  {
    PreferredListsDistinct();
    if catalog.CatalogOk? && SupportedNames(catalog.models) != [] {
      InvocationOrderFromCatalog(ReceiptPreferred, catalog.models);
      InvocationOrderFromCatalog(AdvicePreferred, catalog.models);
    } else {
      PathsFaithful(ReceiptPreferred);
      PathsFaithful(AdvicePreferred);
    }
  }
}

=== FILE: receipt.dfy ===
/**
 The receipt endpoint: `analyzeReceiptImage` and its `handler`. Each attempt
 sends the fixed instruction prompt and the inline image to one model path;
 the first attempt whose first text part, once code fences are removed,
 parses as JSON gives the result. The image, its MIME type and the prompt are
 fixed for the whole request, so an attempt is described by the reply its
 path gets.
 */
module Receipt {
  import opened Common
  import opened Strings
  import opened Gemini
  import opened ModelOrder
  import opened Fallback
  import opened Http

  const NoTextMessage: string := "No text content returned from Gemini."
  const ParseFailurePrefix: string := "Failed to parse JSON from Gemini response: "
  const ExhaustedMessage: string := "Failed to analyze receipt with any available model."
  const FailureMessage: string := "Failed to analyze receipt."
  const MissingFieldsMessage: string := "Image data and mimeType are required."
  const MissingKeyMessage: string := "Server configuration error: API Key missing."
  const JsonFence: string := "```json"

  /* ---------------------------------------------------------------------- */
  /* Fence cleaning                                                          */
  /* ---------------------------------------------------------------------- */

  /** `text.replace(/```json/g, '').replace(/```/g, '').trim()`. */
  function CleanFences(text: string): (r: string)
    ensures !Occurs(Fence, r)
    ensures '`' !in text ==> r == Trim(text)
  {
    var once := RemoveAll(text, JsonFence);
    var twice := RemoveAll(once, Fence);
    NoFenceAfterRemoval(once);
    OccursInTrim(Fence, twice);
    OccursNeedsHead(JsonFence, text);
    OccursNeedsHead(Fence, text);
    Trim(twice)
  }

  /** Cleaning already clean text changes nothing. */
  lemma CleanFencesIdempotent(text: string)
    ensures CleanFences(CleanFences(text)) == CleanFences(text)
  {
    var twice := RemoveAll(RemoveAll(text, JsonFence), Fence);
    var u := CleanFences(text);
    assert u == Trim(twice);
    assert !Occurs(Fence, u);
    assert JsonFence == Fence + "json";
    OccursOfLonger(Fence, "json", u);
    var once' := RemoveAll(u, JsonFence);
    assert once' == u;
    assert RemoveAll(once', Fence) == u;
    TrimIdempotent(twice);
  }

  /** A reply wrapped as a fenced JSON block is cleaned to its trimmed inside. */
  lemma CleanFencesUnwraps(inner: string)
    requires '`' !in inner
    ensures CleanFences(JsonFence + inner + Fence) == Trim(inner)
  {
    var t := JsonFence + inner + Fence;
    assert JsonFence <= t;
    assert t[|JsonFence|..] == inner + Fence;
    RemoveAllAfterPlain(inner, Fence, JsonFence);
    assert RemoveAll(Fence, JsonFence) == Fence;
    RemoveAllAfterPlain(inner, Fence, Fence);
    assert RemoveAll(Fence, Fence) == "";
    assert inner + "" == inner;
  }

  /**
   A reply wrapped in a plain fence is cleaned to its trimmed inside too: the
   first `replace` finds nothing, the second deletes both fences.
   */
  lemma CleanPlainFence(inner: string)
    requires '`' !in inner && !("json" <= inner)
    ensures CleanFences(Fence + inner + Fence) == Trim(inner)
  {
    var t := Fence + inner + Fence;
    assert RemoveAll(t, JsonFence) == t by {
      JsonFenceNotAtTicks(inner);
    }
    assert Fence <= t && t[|Fence|..] == inner + Fence;
    RemoveAllAfterPlain(inner, Fence, Fence);
    assert RemoveAll(Fence, Fence) == "";
    assert inner + "" == inner;
  }

  /** The ticks of a plain opening fence do not start a "```json". */
  lemma JsonFenceNotAtTicks(inner: string)
    requires '`' !in inner && !("json" <= inner)
    ensures RemoveAll(Fence + inner + Fence, JsonFence) == Fence + inner + Fence
  {
    var u := inner + Fence;
    assert Fence + inner + Fence == "`" + ("`" + ("`" + u));
    NoJsonFenceAtTicks(inner);
    RemoveAllKeepsHead('`', "`" + ("`" + u), JsonFence);
    RemoveAllKeepsHead('`', "`" + u, JsonFence);
    RemoveAllKeepsHead('`', u, JsonFence);
    RemoveAllAfterPlain(inner, Fence, JsonFence);
    assert RemoveAll(Fence, JsonFence) == Fence;
  }

  /**
   "```json" does not start at any tick of a plain opening fence: not at the
   first unless the inside starts with "json", and not at the others because
   the inside has no backtick.
   */
  lemma NoJsonFenceAtTicks(inner: string)
    requires '`' !in inner && !("json" <= inner)
    ensures !(JsonFence <= "`" + ("`" + ("`" + (inner + Fence))))
    ensures !(JsonFence <= "`" + ("`" + (inner + Fence)))
    ensures !(JsonFence <= "`" + (inner + Fence))
  {
    var u := inner + Fence;
    var t := "`" + ("`" + ("`" + u));
    if |inner| >= 4 {
      assert t[3..7] == inner[..4] != "json";
    } else {
      assert t[3 + |inner|] == '`' != JsonFence[3 + |inner|];
    }
    if inner != "" {
      assert ("`" + ("`" + u))[2] == inner[0] != '`';
      assert ("`" + u)[1] == inner[0] != '`';
    }
  }

  /* ---------------------------------------------------------------------- */
  /* analyzeReceiptImage                                                     */
  /* ---------------------------------------------------------------------- */

  /** `jsonString.substring(0, 50)`. */
  function Excerpt(s: string): (r: string)
    ensures r <= s
    ensures |r| == if |s| <= 50 then |s| else 50
  {
    if |s| <= 50 then s else s[..50]
  }

  /** The receipt loop's `catch` stores `error.message` as it is. */
  const KeepMessage: string -> string := m => m

  /**
   One iteration of the attempt loop. `tryNext` is the 404 / "not found" /
   "not supported" classification and `parse` is `JSON.parse`.
   */
  function Attempt<J>(reply: Reply, tryNext: (nat, string) -> bool, parse: string -> Option<J>): (s: Step<J>)
    ensures s.Return? <==>
              reply.Ok? && FirstText(reply.candidates) != "" && parse(CleanFences(FirstText(reply.candidates))).Some?
    ensures s.Return? ==> Some(s.value) == parse(CleanFences(FirstText(reply.candidates)))
    ensures reply.Threw? ==> Settle(s, KeepMessage) == Failure(reply.message)
    ensures reply.NotOk? ==> Settle(s, KeepMessage) == Failure(NotOkMessage(reply.status, reply.errorMessage))
    ensures reply.Ok? && FirstText(reply.candidates) == "" ==> Settle(s, KeepMessage) == Failure(NoTextMessage)
    ensures reply.Ok? && FirstText(reply.candidates) != "" && parse(CleanFences(FirstText(reply.candidates))).None?
            ==> Settle(s, KeepMessage)
                == Failure(ParseFailurePrefix + Excerpt(CleanFences(FirstText(reply.candidates))) + "...")
  {
    match reply
    case Threw(m) => Throw(m)
    case NotOk(status, errorMessage) =>
      var m := NotOkMessage(status, errorMessage);
      if tryNext(status, m) then Continue(m) else Throw(m)
    case Ok(candidates) =>
      var text := FirstText(candidates);
      if text == "" then Continue(NoTextMessage)
      else
        var json := CleanFences(text);
        match parse(json)
        case Some(v) => Return(v)
        case None => Throw(ParseFailurePrefix + Excerpt(json) + "...")
  }

  function AttemptEach<J>(upstream: string -> Reply, tryNext: (nat, string) -> bool, parse: string -> Option<J>): string -> Step<J>
  {
    p => Attempt(upstream(p), tryNext, parse)
  }

  /**
   `analyzeReceiptImage`, with `upstream` giving the reply each model path
   gets. A successful run carries what the last path's cleaned first text
   parses to; a failed one has asked every path and carries a non-empty message.
   */
  function Analyze<J>(catalog: Catalog, upstream: string -> Reply, tryNext: (nat, string) -> bool,
                      parse: string -> Option<J>): (run: Run<J>)
    ensures run.attempted <= InvocationOrder(ReceiptPreferred, catalog)
    ensures run.result.Success? ==>
              && |run.attempted| > 0
              && var reply := upstream(run.attempted[|run.attempted| - 1]);
                 reply.Ok? && parse(CleanFences(FirstText(reply.candidates))) == Some(run.result.value)
    ensures run.result.Failure? ==>
              && run.result.error != ""
              && run.attempted == InvocationOrder(ReceiptPreferred, catalog)
              && |run.attempted| > 0
  {
    HandlerOrdersNonEmptyAndDistinct(catalog);
    var run := TryInOrder(InvocationOrder(ReceiptPreferred, catalog), AttemptEach(upstream, tryNext, parse),
                          KeepMessage, "", ExhaustedMessage);
    assert run.result.Success? ==>
             AttemptEach(upstream, tryNext, parse)(run.attempted[|run.attempted| - 1])
             == Attempt(upstream(run.attempted[|run.attempted| - 1]), tryNext, parse);
    run
  }

  /**
   Whatever the classification says about a reply, the iteration leaves the
   same outcome behind: `continue` and a caught `throw` record the same message.
   */
  lemma AttemptIgnoresClassification<J>(reply: Reply, t1: (nat, string) -> bool, t2: (nat, string) -> bool,
                                        parse: string -> Option<J>)
    ensures Settle(Attempt(reply, t1, parse), KeepMessage) == Settle(Attempt(reply, t2, parse), KeepMessage)
  {
  }

  /** The 404 / "not found" / "not supported" classification has no effect on the loop. */
  lemma AnalyzeIgnoresClassification<J>(catalog: Catalog, upstream: string -> Reply,
                                        t1: (nat, string) -> bool, t2: (nat, string) -> bool,
                                        parse: string -> Option<J>)
    ensures Analyze(catalog, upstream, t1, parse) == Analyze(catalog, upstream, t2, parse)
  {
    var paths := InvocationOrder(ReceiptPreferred, catalog);
    forall i | 0 <= i < |paths|
      ensures Settle(AttemptEach(upstream, t1, parse)(paths[i]), KeepMessage)
           == Settle(AttemptEach(upstream, t2, parse)(paths[i]), KeepMessage)
    {
      AttemptIgnoresClassification(upstream(paths[i]), t1, t2, parse);
    }
    OnlySettledMatters(paths, AttemptEach(upstream, t1, parse), AttemptEach(upstream, t2, parse),
                       KeepMessage, "", ExhaustedMessage);
  }

  /**
   The first path whose reply is ok, has a first text part and parses gives
   the result, and no later path is requested.
   */
  lemma AnalyzeFirstParsedWins<J>(catalog: Catalog, upstream: string -> Reply, tryNext: (nat, string) -> bool,
                                  parse: string -> Option<J>, k: nat)
    requires var paths := InvocationOrder(ReceiptPreferred, catalog);
             && k < |paths|
             && upstream(paths[k]).Ok?
             && FirstText(upstream(paths[k]).candidates) != ""
             && parse(CleanFences(FirstText(upstream(paths[k]).candidates))).Some?
             && forall i | 0 <= i < k :: !Attempt(upstream(paths[i]), tryNext, parse).Return?
    ensures var paths := InvocationOrder(ReceiptPreferred, catalog);
            Analyze(catalog, upstream, tryNext, parse)
            == Run(Success(parse(CleanFences(FirstText(upstream(paths[k]).candidates))).value), paths[..k + 1])
  {
    var paths := InvocationOrder(ReceiptPreferred, catalog);
    FirstReturnWins(paths, AttemptEach(upstream, tryNext, parse), KeepMessage, "", ExhaustedMessage, k);
  }

  /**
   When no path yields a parsed result, every path is requested and the error
   is the message the last attempt recorded, or the generic one if that is empty.
   */
  lemma AnalyzeExhausted<J>(catalog: Catalog, upstream: string -> Reply, tryNext: (nat, string) -> bool,
                            parse: string -> Option<J>)
    requires var paths := InvocationOrder(ReceiptPreferred, catalog);
             forall i | 0 <= i < |paths| :: !Attempt(upstream(paths[i]), tryNext, parse).Return?
    ensures var paths := InvocationOrder(ReceiptPreferred, catalog);
            var last := Attempt(upstream(paths[|paths| - 1]), tryNext, parse);
            && |paths| > 0
            && Analyze(catalog, upstream, tryNext, parse)
               == Run(Failure(Or(Settle(last, KeepMessage).error, ExhaustedMessage)), paths)
  {
    var paths := InvocationOrder(ReceiptPreferred, catalog);
    HandlerOrdersNonEmptyAndDistinct(catalog);
    ExhaustionReportsLast(paths, AttemptEach(upstream, tryNext, parse), KeepMessage, "", ExhaustedMessage);
  }

  /* ---------------------------------------------------------------------- */
  /* handler                                                                 */
  /* ---------------------------------------------------------------------- */

  /** The payload parsed and both `image` and `mimeType` are truthy. */
  predicate HasImage(p: Option<Payload>)
  {
    p.Some? && p.value.Value? && Truthy(Get(p.value.fields, "image")) && Truthy(Get(p.value.fields, "mimeType"))
  }

  /** The payload parsed to a non-null value lacking a truthy `image` or `mimeType`. */
  predicate LacksImage(p: Option<Payload>)
  {
    p.Some? && p.value.Value? && !HasImage(p)
  }

  /**
   The receipt `handler`. `keyPresent` says whether the API key is configured,
   `jsonParse` is `JSON.parse` on the request body, and `parse` is
   `JSON.parse` on the cleaned model output.
   */
  function Handle<J>(req: Request, keyPresent: bool, jsonParse: string -> Option<Payload>, catalog: Catalog,
                     upstream: string -> Reply, parse: string -> Option<J>): (resp: Response<J>)
    ensures resp.status in {200, 204, 400, 405, 500, 502}
    ensures resp.status == 204 <==> req.httpMethod == "OPTIONS"
    ensures resp.status == 204 ==> resp.body == NoContent
    ensures resp.status == 405 <==> req.httpMethod != "OPTIONS" && req.httpMethod != "POST"
    ensures resp.status == 500 <==> req.httpMethod == "POST" && !keyPresent
    ensures resp.status == 400 <==> req.httpMethod == "POST" && keyPresent && LacksImage(jsonParse(BodyText(req.body)))
    ensures resp.attempted != [] <==> req.httpMethod == "POST" && keyPresent && HasImage(jsonParse(BodyText(req.body)))
    ensures req.httpMethod == "POST" && keyPresent && jsonParse(BodyText(req.body)) in {None, Some(NullPayload)}
            ==> resp == Response(502, ErrorJson(EngineMessage), [])
    ensures req.httpMethod == "POST" && keyPresent && LacksImage(jsonParse(BodyText(req.body)))
            ==> resp == Response(400, ErrorJson(Said(MissingFieldsMessage)), [])
    ensures req.httpMethod == "POST" && keyPresent && HasImage(jsonParse(BodyText(req.body))) ==>
              var run := Analyze(catalog, upstream, ShouldTryNext, parse);
              && resp.attempted == run.attempted
              && resp.status == (if run.result.Success? then 200 else 502)
              && resp.body == (if run.result.Success? then Data(run.result.value) else ErrorJson(Said(run.result.error)))
    ensures resp.status == 200 ==>
              && resp.body.Data? && |resp.attempted| > 0
              && var reply := upstream(resp.attempted[|resp.attempted| - 1]);
                 reply.Ok? && parse(CleanFences(FirstText(reply.candidates))) == Some(resp.body.value)
    ensures resp.status == 502 && resp.attempted != [] ==>
              && resp.attempted == InvocationOrder(ReceiptPreferred, catalog)
              && resp.body.ErrorJson? && resp.body.error.Said? && resp.body.error.text != ""
  {
    match Gate(req, keyPresent, MissingKeyMessage)
    case Some(early) => early
    case None =>
      var payload := jsonParse(BodyText(req.body));
      match payload
      case None => Response(502, ErrorJson(EngineMessage), [])
      case Some(NullPayload) => Response(502, ErrorJson(EngineMessage), [])
      case Some(Value(fields)) =>
        if !HasImage(payload) then Response(400, ErrorJson(Said(MissingFieldsMessage)), [])
        else
          var run := Analyze(catalog, upstream, ShouldTryNext, parse);
          match run.result
          case Success(v) => Response(200, Data(v), run.attempted)
          case Failure(e) => Response(502, ErrorJson(Said(Or(e, FailureMessage))), run.attempted)
  }
}

=== FILE: sequences.dfy ===
/**
 List facts used by the model-ordering code: distinctness, first-occurrence
 positions, order-preserving filtering and first-occurrence de-duplication.
 Filtering and de-duplication are written from the back, the way a loop that
 `push`es onto an array builds its result one element at a time.
 */
module Sequences {

  /** No element occurs twice. */
  predicate NoDup<T(==)>(s: seq<T>)
  {
    forall i, j | 0 <= i < j < |s| :: s[i] != s[j]
  }

  /** The position of the first occurrence of `x` in `s`. */
  function IndexOf<T(==)>(s: seq<T>, x: T): (k: nat)
    requires x in s
    ensures k < |s| && s[k] == x
    ensures forall i | 0 <= i < k :: s[i] != x
  {
    if s[0] == x then 0 else 1 + IndexOf(s[1..], x)
  }

  /**
   Every element of `t` occurs in `s`, and `t` lists them in strictly
   increasing order of their first occurrence in `s`.
   */
  predicate FollowsOrderOf<T(==)>(t: seq<T>, s: seq<T>)
  {
    && (forall i | 0 <= i < |t| :: t[i] in s)
    && (forall i, j | 0 <= i < j < |t| :: IndexOf(s, t[i]) < IndexOf(s, t[j]))
  }

  lemma FollowsOrderHasNoDup<T>(t: seq<T>, s: seq<T>)
    requires FollowsOrderOf(t, s)
    ensures NoDup(t)
  {
  }

  /** A duplicate-free list follows its own order. */
  lemma NoDupFollowsItself<T>(s: seq<T>)
    requires NoDup(s)
    ensures FollowsOrderOf(s, s)
  {
    forall i | 0 <= i < |s|
      ensures IndexOf(s, s[i]) == i
    {
      var k := IndexOf(s, s[i]);
      assert !(k < i) && !(i < k);
    }
  }

  /** Appending to `s` does not move the first occurrence of anything already in `s`. */
  lemma {:induction false} IndexOfExtend<T>(s: seq<T>, u: seq<T>, x: T)
    requires x in s
    ensures IndexOf(s + u, x) == IndexOf(s, x)
  {
    if s[0] != x {
      assert (s + u)[1..] == s[1..] + u;
      IndexOfExtend(s[1..], u, x);
    }
  }

  /** The elements of `s` that `keep` accepts, in their order in `s`. */
  function Filter<T>(s: seq<T>, keep: T -> bool): (r: seq<T>)
    ensures |r| <= |s|
    ensures forall i | 0 <= i < |r| :: r[i] in s && keep(r[i])
    ensures forall i | 0 <= i < |s| && keep(s[i]) :: s[i] in r
  {
    if |s| == 0 then []
    else
      var init := s[..|s| - 1];
      assert s == init + [s[|s| - 1]];
      var r := Filter(init, keep);
      if keep(s[|s| - 1]) then r + [s[|s| - 1]] else r
  }

  /** An element placed after everything already listed extends the order. */
  lemma FollowsOrderSnoc<T>(r: seq<T>, last: T, s: seq<T>)
    requires FollowsOrderOf(r, s) && last in s
    requires forall i | 0 <= i < |r| :: IndexOf(s, r[i]) < IndexOf(s, last)
    ensures FollowsOrderOf(r + [last], s)
  {
    var f := r + [last];
    forall i, j | 0 <= i < j < |f| ensures IndexOf(s, f[i]) < IndexOf(s, f[j]) {
      if j < |r| {
        assert f[i] == r[i] && f[j] == r[j];
      } else {
        assert f[i] == r[i] && f[j] == last;
      }
    }
  }

  /** Filtering keeps the order a list follows. */
  lemma {:induction false} FilterFollowsOrder<T>(t: seq<T>, keep: T -> bool, s: seq<T>)
    requires FollowsOrderOf(t, s)
    ensures FollowsOrderOf(Filter(t, keep), s)
  {
    if |t| > 0 {
      var init := t[..|t| - 1];
      var last := t[|t| - 1];
      assert FollowsOrderOf(init, s);
      FilterFollowsOrder(init, keep, s);
      var r := Filter(init, keep);
      if keep(last) {
        forall i | 0 <= i < |r|
          ensures IndexOf(s, r[i]) < IndexOf(s, last)
        {
          assert r[i] in init;
          var k :| 0 <= k < |init| && init[k] == r[i];
          assert t[k] == r[i];
        }
        assert Filter(t, keep) == r + [last];
        FollowsOrderSnoc(r, last, s);
      }
    }
  }

  /** Two filters that agree on every element of `s` pick out the same list. */
  lemma {:induction false} FilterAgree<T>(s: seq<T>, k1: T -> bool, k2: T -> bool)
    requires forall i | 0 <= i < |s| :: k1(s[i]) == k2(s[i])
    ensures Filter(s, k1) == Filter(s, k2)
  {
    if |s| > 0 {
      FilterAgree(s[..|s| - 1], k1, k2);
    }
  }

  /** The first occurrence of each element of `s`, in the order those occurrences appear. */
  function Dedupe<T(==)>(s: seq<T>): (r: seq<T>)
    ensures forall i | 0 <= i < |r| :: r[i] in s
    ensures forall i | 0 <= i < |s| :: s[i] in r
  {
    if |s| == 0 then []
    else
      var init := s[..|s| - 1];
      assert s == init + [s[|s| - 1]];
      var d := Dedupe(init);
      if s[|s| - 1] in d then d else d + [s[|s| - 1]]
  }

  /** De-duplication lists elements in first-occurrence order, hence without repeats. */
  lemma {:induction false} DedupeFollowsOrder<T>(s: seq<T>)
    ensures FollowsOrderOf(Dedupe(s), s)
    ensures NoDup(Dedupe(s))
  {
    if |s| > 0 {
      var init := s[..|s| - 1];
      var last := s[|s| - 1];
      assert s == init + [last];
      DedupeFollowsOrder(init);
      var d := Dedupe(init);
      forall i | 0 <= i < |d|
        ensures IndexOf(s, d[i]) == IndexOf(init, d[i])
      {
        IndexOfExtend(init, [last], d[i]);
      }
      assert FollowsOrderOf(d, s);
      if last !in d {
        assert last !in init;
        forall i | 0 <= i < |d|
          ensures IndexOf(s, d[i]) < IndexOf(s, last)
        {
          assert IndexOf(s, last) == |s| - 1;
        }
        FollowsOrderSnoc(d, last, s);
      }
      FollowsOrderHasNoDup(Dedupe(s), s);
    }
  }
}

=== FILE: strings.dfy ===
/**
 The string operations the handlers rely on, written out over `seq<char>`:
 substring search, global literal replacement by the empty string
 (`s.replace(/lit/g, '')`), `String.prototype.trim`, `Array.prototype.join`,
 ASCII case-insensitive search (`/lit/i`), and decimal rendering of a number
 inside a template literal.
 */
module Strings {

  /* ---------------------------------------------------------------------- */
  /* Substring search                                                        */
  /* ---------------------------------------------------------------------- */

  /** `p` occurs somewhere in `s` as a contiguous block. */
  predicate Occurs(p: string, s: string)
    decreases |s|
  {
    p <= s || (|s| > 0 && Occurs(p, s[1..]))
  }

  lemma {:induction false} OccursInPrefix(p: string, s: string, j: nat)
    requires j <= |s|
    ensures Occurs(p, s[..j]) ==> Occurs(p, s)
    decreases j
  {
    if Occurs(p, s[..j]) && !(p <= s[..j]) {
      assert s[..j][1..] == s[1..][..j - 1];
      OccursInPrefix(p, s[1..], j - 1);
    }
  }

  lemma {:induction false} OccursInSuffix(p: string, s: string, i: nat)
    requires i <= |s|
    ensures Occurs(p, s[i..]) ==> Occurs(p, s)
    decreases i
  {
    if i > 0 {
      assert s[1..][i - 1..] == s[i..];
      OccursInSuffix(p, s[1..], i - 1);
    }
  }

  /** Whatever occurs in a slice of `s` occurs in `s`. */
  lemma OccursInInfix(p: string, s: string, i: nat, j: nat)
    requires i <= j <= |s|
    ensures Occurs(p, s[i..j]) ==> Occurs(p, s)
  {
    assert s[i..j] == s[..j][i..];
    OccursInSuffix(p, s[..j], i);
    OccursInPrefix(p, s, j);
  }

  /** An occurrence of `p + q` is in particular an occurrence of `p`. */
  lemma {:induction false} OccursOfLonger(p: string, q: string, s: string)
    ensures Occurs(p + q, s) ==> Occurs(p, s)
    decreases |s|
  {
    if Occurs(p + q, s) && !(p + q <= s) {
      OccursOfLonger(p, q, s[1..]);
    }
  }

  /** A non-empty pattern can only occur in a string containing its first character. */
  lemma {:induction false} OccursNeedsHead(p: string, s: string)
    requires p != ""
    ensures Occurs(p, s) ==> p[0] in s
    decreases |s|
  {
    if Occurs(p, s) && !(p <= s) {
      OccursNeedsHead(p, s[1..]);
    }
  }

  /* ---------------------------------------------------------------------- */
  /* s.replace(/lit/g, '')                                                   */
  /* ---------------------------------------------------------------------- */

  /**
   Deletes every occurrence of the literal `p` found by a left-to-right scan
   that resumes after each match, as a global regular-expression replacement
   of a literal by the empty string does.
   */
  function RemoveAll(s: string, p: string): (r: string)
    requires p != ""
    ensures |r| <= |s|
    ensures forall c :: c in r ==> c in s
    ensures !Occurs(p, s) ==> r == s
    decreases |s|
  {
    if |s| == 0 then ""
    else if p <= s then RemoveAll(s[|p|..], p)
    else [s[0]] + RemoveAll(s[1..], p)
  }

  /** Text in front of which no match can start is copied verbatim. */
  lemma {:induction false} RemoveAllAfterPlain(a: string, b: string, p: string)
    requires p != "" && p[0] !in a
    ensures RemoveAll(a + b, p) == a + RemoveAll(b, p)
    decreases |a|
  {
    if |a| > 0 {
      assert (a + b)[0] == a[0] != p[0];
      assert !(p <= a + b);
      assert (a + b)[1..] == a[1..] + b;
      RemoveAllAfterPlain(a[1..], b, p);
      assert a == [a[0]] + a[1..];
    } else {
      assert a + b == b;
    }
  }

  /**
   At the first match, the text in front of it is kept, the match is deleted,
   and the scan resumes right after it. No earlier match can start inside `a`,
   nor straddle its end.
   */
  lemma RemoveAllFirstMatch(a: string, p: string, b: string)
    requires p != "" && !Occurs(p, a + p[..|p| - 1])
    ensures RemoveAll(a + p + b, p) == a + RemoveAll(b, p)
  {
    assert a + p + b == a + (p + b);
    assert (p + b)[|p|..] == b;
    RemoveAllBeforeMatch(a, p, p + b);
  }

  /** `RemoveAllFirstMatch` with the match and the rest after it kept together as `t`. */
  lemma {:induction false} RemoveAllBeforeMatch(a: string, p: string, t: string)
    requires p != "" && p <= t && !Occurs(p, a + p[..|p| - 1])
    ensures RemoveAll(a + t, p) == a + RemoveAll(t[|p|..], p)
    decreases |a|
  {
    if |a| == 0 {
      assert a + t == t;
    } else {
      var a' := a[1..];
      assert (a + p[..|p| - 1])[1..] == a' + p[..|p| - 1];
      RemoveAllBeforeMatch(a', p, t);
      NoMatchInFront(a, p, t);
      ConsConcat(a, t);
      RemoveAllKeepsHead(a[0], a' + t, p);
      ConsConcat(a, RemoveAll(t[|p|..], p));
    }
  }

  lemma ConsConcat(a: string, t: string)
    requires |a| > 0
    ensures [a[0]] + (a[1..] + t) == a + t
  {
  }

  /** A character at which no match starts is kept, and the scan moves on by one. */
  lemma RemoveAllKeepsHead(c: char, t: string, p: string)
    requires p != "" && !(p <= [c] + t)
    ensures RemoveAll([c] + t, p) == [c] + RemoveAll(t, p)
  {
    assert ([c] + t)[1..] == t;
  }

  /** A match at the head of `a + t` with `a` non-empty would lie inside `a + p[..|p| - 1]`. */
  lemma NoMatchInFront(a: string, p: string, t: string)
    requires |a| > 0 && p != "" && p <= t && !(p <= a + p[..|p| - 1])
    ensures !(p <= a + t)
  {
    var s := a + t;
    var q := a + p[..|p| - 1];
    assert s[..|p|] == q[..|p|];
  }

  /** The markdown code-fence marker. */
  const Fence: string := "```"

  /** A string that starts with a character other than a backtick keeps it in front. */
  lemma RemoveFenceKeepsHead(t: string)
    requires |t| > 0 && t[0] != '`'
    ensures |RemoveAll(t, Fence)| > 0 && RemoveAll(t, Fence)[0] == t[0]
  {
  }

  /**
   If `s` starts with a backtick but not with a whole fence, removing the
   fences from the rest of `s` cannot leave two backticks in front.
   */
  lemma HeadAfterLoneTick(s: string)
    requires |s| > 0 && s[0] == '`' && !(Fence <= s)
    ensures !("``" <= RemoveAll(s[1..], Fence))
  {
    var t := s[1..];
    if |t| == 0 {
    } else if t[0] != '`' {
      RemoveFenceKeepsHead(t);
    } else if |t| == 1 {
      assert RemoveAll(t, Fence) == "`";
    } else {
      assert t[1] == s[2] && s[..3] != Fence;
      assert t[1] != '`';
      assert !(Fence <= t) by {
        assert Fence[1] != t[1];
      }
      RemoveFenceKeepsHead(t[1..]);
      var r := RemoveAll(t, Fence);
      assert r == [t[0]] + RemoveAll(t[1..], Fence);
      assert r[1] == t[1];
    }
  }

  /**
   Removing every fence leaves no fence behind: the left-to-right scan never
   glues two leftover pieces into a new "```".
   */
  lemma {:induction false} NoFenceAfterRemoval(s: string)
    ensures !Occurs(Fence, RemoveAll(s, Fence))
    decreases |s|
  {
    if |s| == 0 {
    } else if Fence <= s {
      NoFenceAfterRemoval(s[3..]);
    } else {
      var rest := RemoveAll(s[1..], Fence);
      NoFenceAfterRemoval(s[1..]);
      var r := [s[0]] + rest;
      assert r[1..] == rest;
      if s[0] == '`' {
        HeadAfterLoneTick(s);
        assert !(Fence <= r);
      } else {
        assert !(Fence <= r);
      }
    }
  }

  /* ---------------------------------------------------------------------- */
  /* String.prototype.trim                                                   */
  /* ---------------------------------------------------------------------- */

  /** The characters `trim` strips: the WhiteSpace and LineTerminator code points of ECMAScript. */
  predicate IsSpace(c: char)
  {
    || c == '\t' || c == '\n' || c == '\U{000B}' || c == '\U{000C}' || c == '\r' || c == ' '
    || c == '\U{00A0}' || c == '\U{1680}' || ('\U{2000}' <= c <= '\U{200A}')
    || c == '\U{2028}' || c == '\U{2029}' || c == '\U{202F}' || c == '\U{205F}'
    || c == '\U{3000}' || c == '\U{FEFF}'
  }

  predicate AllSpace(s: string)
  {
    forall i | 0 <= i < |s| :: IsSpace(s[i])
  }

  /** Where the content starts: the first index at or after `k` that is not whitespace, or `|s|`. */
  function SkipSpace(s: string, k: nat): (r: nat)
    requires k <= |s|
    ensures k <= r <= |s|
    ensures forall i | k <= i < r :: IsSpace(s[i])
    ensures r < |s| ==> !IsSpace(s[r])
    decreases |s| - k
  {
    if k < |s| && IsSpace(s[k]) then SkipSpace(s, k + 1) else k
  }

  /** Where the content ends: the last index at or before `k` not preceded by whitespace. */
  function SkipSpaceBack(s: string, k: nat): (r: nat)
    requires k <= |s|
    ensures r <= k
    ensures forall i | r <= i < k :: IsSpace(s[i])
    ensures r > 0 ==> !IsSpace(s[r - 1])
    decreases k
  {
    if k > 0 && IsSpace(s[k - 1]) then SkipSpaceBack(s, k - 1) else k
  }

  /** The index of the first character that is not whitespace (`|s|` if there is none). */
  function ContentStart(s: string): nat
  {
    SkipSpace(s, 0)
  }

  /** One past the index of the last character that is not whitespace (0 if there is none). */
  function ContentEnd(s: string): nat
  {
    SkipSpaceBack(s, |s|)
  }

  /** Both ends of the content are determined by where the whitespace stops. */
  lemma ContentStartIs(s: string, n: nat)
    requires n <= |s|
    requires forall i | 0 <= i < n :: IsSpace(s[i])
    requires n < |s| ==> !IsSpace(s[n])
    ensures ContentStart(s) == n
  {
  }

  lemma ContentEndIs(s: string, n: nat)
    requires n <= |s|
    requires forall i | n <= i < |s| :: IsSpace(s[i])
    requires n > 0 ==> !IsSpace(s[n - 1])
    ensures ContentEnd(s) == n
  {
  }

  /** A string that is not all whitespace has content that ends after it starts. */
  lemma ContentApart(s: string)
    requires ContentStart(s) < |s|
    ensures ContentStart(s) < ContentEnd(s) <= |s|
  {
  }

  /** `s.trim()`: the part of `s` between its leading and its trailing whitespace. */
  function Trim(s: string): (r: string)
    ensures |r| <= |s|
    ensures r != "" ==> !IsSpace(r[0]) && !IsSpace(r[|r| - 1])
    ensures r == "" <==> AllSpace(s)
  {
    if ContentStart(s) == |s| then ""
    else
      ContentApart(s);
      s[ContentStart(s)..ContentEnd(s)]
  }

  /**
   The trimmed string is the slice of `s` between its leading and its trailing
   whitespace: what comes before and after it is all whitespace.
   */
  lemma TrimIsSlice(s: string)
    ensures var i := ContentStart(s);
            && i + |Trim(s)| <= |s| && Trim(s) == s[i..i + |Trim(s)|]
            && AllSpace(s[..i]) && AllSpace(s[i + |Trim(s)|..])
  {
    var i := ContentStart(s);
    if i < |s| {
      ContentApart(s);
    }
    var j := i + |Trim(s)|;
    assert forall k | 0 <= k < i :: s[..i][k] == s[k];
    assert forall k | 0 <= k < |s| - j :: s[j..][k] == s[j + k];
  }

  /** Whatever occurs in the trimmed string occurs in the input. */
  lemma OccursInTrim(p: string, s: string)
    ensures Occurs(p, Trim(s)) ==> Occurs(p, s)
  {
    TrimIsSlice(s);
    OccursInInfix(p, s, ContentStart(s), ContentStart(s) + |Trim(s)|);
  }

  lemma ContentStartAfterSpace(ws: string, s: string)
    requires AllSpace(ws)
    ensures ContentStart(ws + s) == |ws| + ContentStart(s)
  {
    var u := ws + s;
    var n := |ws| + ContentStart(s);
    forall k | 0 <= k < n ensures IsSpace(u[k]) {
      if k >= |ws| {
        assert u[k] == s[k - |ws|];
      }
    }
    if n < |u| {
      assert u[n] == s[ContentStart(s)];
    }
    ContentStartIs(u, n);
  }

  lemma ContentStartBeforeAny(s: string, x: string)
    requires ContentStart(s) < |s|
    ensures ContentStart(s + x) == ContentStart(s)
  {
    var n := ContentStart(s);
    assert (s + x)[n] == s[n];
    assert forall i | 0 <= i < n :: (s + x)[i] == s[i];
    ContentStartIs(s + x, n);
  }

  lemma ContentEndBeforeSpace(s: string, ws: string)
    requires AllSpace(ws)
    ensures ContentEnd(s + ws) == ContentEnd(s)
  {
    var u := s + ws;
    var n := ContentEnd(s);
    forall k | n <= k < |u| ensures IsSpace(u[k]) {
      if k < |s| {
        assert u[k] == s[k];
      } else {
        assert u[k] == ws[k - |s|];
      }
    }
    if n > 0 {
      assert u[n - 1] == s[n - 1];
    }
    ContentEndIs(u, n);
  }

  lemma ContentEndAfterAny(x: string, s: string)
    requires ContentEnd(s) > 0
    ensures ContentEnd(x + s) == |x| + ContentEnd(s)
  {
    var u := x + s;
    var n := |x| + ContentEnd(s);
    assert u[n - 1] == s[ContentEnd(s) - 1];
    forall k | n <= k < |u| ensures IsSpace(u[k]) {
      assert u[k] == s[k - |x|];
    }
    ContentEndIs(u, n);
  }

  lemma SliceAfter(x: string, s: string, i: nat, j: nat)
    requires i <= j <= |s|
    ensures (x + s)[|x| + i..|x| + j] == s[i..j]
  {
  }

  lemma SliceBefore(s: string, x: string, i: nat, j: nat)
    requires i <= j <= |s|
    ensures (s + x)[i..j] == s[i..j]
  {
  }

  /** Leading whitespace makes no difference to `trim`. */
  lemma TrimAfterSpace(ws: string, s: string)
    requires AllSpace(ws)
    ensures Trim(ws + s) == Trim(s)
  {
    ContentStartAfterSpace(ws, s);
    if ContentStart(s) < |s| {
      ContentApart(s);
      ContentEndAfterAny(ws, s);
      SliceAfter(ws, s, ContentStart(s), ContentEnd(s));
    }
  }

  /** Trailing whitespace makes no difference to `trim`. */
  lemma TrimBeforeSpace(s: string, ws: string)
    requires AllSpace(ws)
    ensures Trim(s + ws) == Trim(s)
  {
    if ContentStart(s) == |s| {
      ContentStartAfterSpace(s, ws);
    } else {
      ContentApart(s);
      ContentStartBeforeAny(s, ws);
      ContentEndBeforeSpace(s, ws);
      SliceBefore(s, ws, ContentStart(s), ContentEnd(s));
    }
  }

  /** Surrounding whitespace makes no difference to `trim`. */
  lemma TrimIgnoresPadding(ws1: string, s: string, ws2: string)
    requires AllSpace(ws1) && AllSpace(ws2)
    ensures Trim(ws1 + s + ws2) == Trim(s)
  {
    assert ws1 + s + ws2 == ws1 + (s + ws2);
    TrimAfterSpace(ws1, s + ws2);
    TrimBeforeSpace(s, ws2);
  }

  /** A string without whitespace at either end is left alone by `trim`. */
  lemma TrimKeepsTrimmed(s: string)
    requires s == "" || (!IsSpace(s[0]) && !IsSpace(s[|s| - 1]))
    ensures Trim(s) == s
  {
    if s != "" {
      ContentStartIs(s, 0);
      ContentEndIs(s, |s|);
    }
  }

  /** Trimming twice is trimming once. */
  lemma TrimIdempotent(s: string)
    ensures Trim(Trim(s)) == Trim(s)
  {
    TrimKeepsTrimmed(Trim(s));
  }

  /* ---------------------------------------------------------------------- */
  /* Array.prototype.join                                                    */
  /* ---------------------------------------------------------------------- */

  /** `xs.join(sep)`. */
  function Join(xs: seq<string>, sep: string): (r: string)
    ensures |xs| == 1 ==> r == xs[0]
    ensures (forall i | 0 <= i < |xs| :: xs[i] != "") ==> (r == "" <==> |xs| == 0)
  {
    if |xs| == 0 then ""
    else if |xs| == 1 then xs[0]
    else xs[0] + sep + Join(xs[1..], sep)
  }

  /** Joining one more piece appends the separator and that piece. */
  lemma {:induction false} JoinSnoc(xs: seq<string>, y: string, sep: string)
    requires |xs| > 0
    ensures Join(xs + [y], sep) == Join(xs, sep) + sep + y
    decreases |xs|
  {
    if |xs| > 1 {
      assert (xs + [y])[1..] == xs[1..] + [y];
      JoinSnoc(xs[1..], y, sep);
    }
  }

  /* ---------------------------------------------------------------------- */
  /* /lit/i                                                                  */
  /* ---------------------------------------------------------------------- */

  /**
   Case folding of a regular expression without the `u` flag: only ASCII
   letters fold onto ASCII letters, so for an ASCII pattern ASCII folding is exact.
   */
  function AsciiLower(c: char): char
  {
    if 'A' <= c <= 'Z' then (c as int + 32) as char else c
  }

  function Lower(s: string): (r: string)
    ensures |r| == |s|
    ensures forall i | 0 <= i < |s| :: r[i] == AsciiLower(s[i])
  {
    seq(|s|, i requires 0 <= i < |s| => AsciiLower(s[i]))
  }

  /** `/p/i.test(s)` for a literal pattern `p`. */
  predicate MatchesIgnoringCase(s: string, p: string)
  {
    Occurs(Lower(p), Lower(s))
  }

  /** Folding both sides keeps every occurrence. */
  lemma {:induction false} OccursLower(p: string, s: string)
    ensures Occurs(p, s) ==> Occurs(Lower(p), Lower(s))
    decreases |s|
  {
    if Occurs(p, s) {
      if p <= s {
        assert Lower(p) == Lower(s)[..|p|];
      } else {
        assert Lower(s)[1..] == Lower(s[1..]);
        OccursLower(p, s[1..]);
      }
    }
  }

  /** An occurrence of any spelling that folds onto the pattern is a match. */
  lemma FoldedOccurrence(s: string, q: string, p: string)
    requires Lower(q) == Lower(p)
    ensures Occurs(q, s) ==> MatchesIgnoringCase(s, p)
  {
    OccursLower(q, s);
  }

  /** A match in any letter case starts at a letter that folds onto the pattern's first one. */
  lemma MatchNeedsHead(s: string, p: string)
    requires p != ""
    ensures MatchesIgnoringCase(s, p) ==> exists i | 0 <= i < |s| :: AsciiLower(s[i]) == AsciiLower(p[0])
  {
    if MatchesIgnoringCase(s, p) {
      OccursNeedsHead(Lower(p), Lower(s));
      var i :| 0 <= i < |Lower(s)| && Lower(s)[i] == Lower(p)[0];
      assert AsciiLower(s[i]) == AsciiLower(p[0]);
    }
  }

  /* ---------------------------------------------------------------------- */
  /* `${n}` for a non-negative integer                                        */
  /* ---------------------------------------------------------------------- */

  predicate IsDigit(c: char)
  {
    '0' <= c <= '9'
  }

  /** Decimal digits of `n`, most significant first, with no leading zero. */
  function Decimal(n: nat): (r: string)
    ensures r != ""
    ensures forall i | 0 <= i < |r| :: IsDigit(r[i])
    ensures r[0] == '0' ==> n == 0
    decreases n
  {
    if n < 10 then ["0123456789"[n]]
    else Decimal(n / 10) + ["0123456789"[n % 10]]
  }

  /** The number a string of decimal digits denotes. */
  function DecimalValue(s: string): nat
    requires forall i | 0 <= i < |s| :: IsDigit(s[i])
  {
    if s == "" then 0
    else
      assert IsDigit(s[|s| - 1]);
      DecimalValue(s[..|s| - 1]) * 10 + (s[|s| - 1] as int - '0' as int)
  }

  /** Rendering a number in decimal loses nothing: reading it back gives the number. */
  lemma {:induction false} DecimalRoundTrip(n: nat)
    ensures DecimalValue(Decimal(n)) == n
    decreases n
  {
    if n >= 10 {
      var d := Decimal(n);
      assert d[..|d| - 1] == Decimal(n / 10);
      DecimalRoundTrip(n / 10);
    }
  }
}
